=== FILE: README.md ===
# TradeMate Mobile — session, cache and form logic in Dafny

TradeMate Mobile is a React Native client for a trade-services back end
(customers, jobs, invoices, quotes). This project models the parts of the
client that are sequential logic rather than rendering:

- **Session** (`services/api.ts`): the bearer token kept in secure storage,
  the request step that attaches `Authorization: Bearer <token>`, the response
  step that removes the token on a 401 and re-rejects every error unchanged,
  `login`, `logout`, `getCurrentUser`, and the base URL.
- **Auth** (`hooks/useAuth.tsx`): the provider's `user` / `isLoading` state,
  `checkAuth`, `login`, `logout`, `isAuthenticated` and the `useAuth` guard.
- **Queries** (`hooks/useApi.ts`): cache keys (`[resource]`,
  `[resource, params]`, `[resource, id]`), the `enabled: !!id` guard, each
  mutation's endpoint, and the static table of key prefixes a successful
  mutation invalidates. The query cache is a map from key to a stale flag.
- **Currency** (`components/forms/FormCurrency.tsx`): the text cleaning of
  `handleChange` and the value it reports.
- **LineItems, InvoiceForm, QuoteForm, JobForm, CustomerForm**
  (`app/*/create.tsx`): the line-item editor, the job filter and
  `addJobAsItem`, the per-field error clearing of `updateField`, the
  validators, and the mapping from form state to the submitted body.
- **Text, FormErrors, Domain, Wrappers**: JavaScript's `trim`, the
  `s || undefined` idiom and integer printing; the shared errors map; the
  records of `types/index.ts`; `Option` and `Result`.

Everything is a pure function over immutable datatypes. The outcomes of the
foreign libraries are parameters: an HTTP reply is a
`Result<T, HttpError>`, where `HttpError` carries the status (none for a
network failure). A failing secure-storage read is a boolean. Fresh line-item
ids (`Date.now().toString()`) and dates are parameters too. JavaScript
truthiness is written out where the code relies on it:

- an empty stored token adds no header;
- an empty `EXPO_PUBLIC_API_URL` falls back to the default host;
- customer id 0 counts as "no customer";
- a `job_id` of 0 is sent as null.

One might expect the session to keep "token present exactly when a user is
signed in". The code does not keep it: a 401 on any request other than the
logout POST (a data query or a mutation, say) removes the token but leaves
`user` set. `Auth.ProviderTransitionsKeepConsistency`
proves that `checkAuth`, a successful `login` and `logout` preserve
"signed-in user ⇒ stored token". `Auth.UnauthorizedReplyLeavesStaleUser`
shows the 401 path that breaks it.

## Model

| member | source | states |
|---|---|---|
| Session.BaseUrl | services/api.ts:18-26 | the base URL is the configured host plus `/api/v1`, and the host is `http://localhost:8000` when the variable is unset or empty |
| Session.DefaultHeaders | services/api.ts:27-30 | every request starts with exactly the two JSON headers and no Authorization header |
| Session.GetToken | services/api.ts:56-62 | a read returns the stored token, or nothing when the storage read throws; it never fails |
| Session.SetToken | services/api.ts:64-66 | after storing, the next read returns that token |
| Session.RemoveToken | services/api.ts:68-70 | after removal, the next read returns nothing |
| Session.NewRequest | services/api.ts:157-165 | a verb helper issues the given verb and path with no Authorization header |
| Session.AttachToken | services/api.ts:33-42 | with a truthy token the request gains `Authorization = "Bearer " + token` and keeps every other header; without one it is unchanged |
| Session.OnResponse | services/api.ts:44-52 | a 401 failure removes the token; any other reply leaves storage unchanged |
| Session.Exchange | services/api.ts:33-52 | one call sends the token-stamped request, settles to the server's reply unchanged (no retry), and clears the token only on 401 |
| Session.Login | services/api.ts:73-81 | login posts to `/auth/login`; on success the stored token is the response's token and the body is returned; a failure rejects unchanged |
| Session.Logout | services/api.ts:83-89 | after logout the token is absent whether or not the POST succeeded, and a POST failure still rejects |
| Session.GetCurrentUser | services/api.ts:91-94 | `GET /auth/user` settles to the reply, and a 401 clears the token |
| Session.AuthorizationFollowsStore | services/api.ts:33-40 | with a truthy stored token the request carries exactly `Bearer <token>`; with none stored it has no Authorization header |
| Session.LoginThenGetToken | services/api.ts:56-81 | after a successful login, `getToken` returns exactly the token the server returned |
| Auth.CheckAuth | hooks/useAuth.tsx:23-36 | without a truthy token no request is sent and the user is unchanged; with one, a successful fetch sets the user and a failed fetch removes the token and clears the user; loading ends on every path and the call never rejects |
| Auth.DeviceName | hooks/useAuth.tsx:39 | the device name is exactly `TradeMate Mobile - ` followed by the timestamp |
| Auth.Login | hooks/useAuth.tsx:38-42 | a successful login sets the user and stores the token; a rejected login leaves the user unchanged and rejects |
| Auth.Logout | hooks/useAuth.tsx:44-50 | after logout the user and the token are gone even when the server call rejects, and the rejection propagates |
| Auth.ContextValue | hooks/useAuth.tsx:52-60 | `isAuthenticated` is true exactly when a user is set |
| Auth.UseAuth | hooks/useAuth.tsx:67-73 | outside a provider the hook fails with its message; inside it returns the provider's value |
| Auth.ProviderTransitionsKeepConsistency | hooks/useAuth.tsx:16-50 | mounting, `checkAuth`, a successful `login` and `logout` keep "signed-in user ⇒ stored token" |
| Auth.UnauthorizedReplyLeavesStaleUser | services/api.ts:44-52 | a 401 reply to any request other than the logout POST, made while signed in (a data query, a mutation, a failed re-login), removes the token but keeps the user, so `isAuthenticated` stays true |
| Queries.DashboardQuery | hooks/useApi.ts:6-11 | the dashboard query is keyed `['dashboard']`, always enabled, and fetches `/dashboard/stats` |
| Queries.ListQuery | hooks/useApi.ts:14-19 | a list query is keyed by its resource and its exact parameters, is always enabled, and GETs the collection path; the parameters sent are the key's own |
| Queries.ItemQuery | hooks/useApi.ts:21-27 | an item query is keyed by its resource and id and is enabled exactly when the id is not 0 |
| Queries.Issued | hooks/useApi.ts:25 | a query issues its request exactly when it is enabled |
| Queries.Populate | hooks/useApi.ts:14-19 | a successful enabled fetch makes only its own entry fresh; a disabled or failed one leaves the cache as it was |
| Queries.Invalidate | hooks/useApi.ts:33 | invalidation marks stale every key whose first segment is in the prefix set and touches no other entry |
| Queries.Endpoint | hooks/useApi.ts:29-175 | creates POST to the collection, updates PUT, actions POST; every path lies under the collection of the written resource, and only creates use the bare collection path |
| Queries.EndpointPaths | hooks/useApi.ts:32-146 | each write's URL spelled out: `/customers`, `/jobs`, `/invoices`, `/quotes` for creates, `/customers/{id}` and `/jobs/{id}` for updates, and `/jobs/{id}/start`, `/jobs/{id}/complete`, `/invoices/{id}/send`, `/invoices/{id}/add-payment` for actions |
| Queries.Invalidates | hooks/useApi.ts:33-174 | every mutation invalidates its own resource; the job mutations, invoice create and add-payment also invalidate `dashboard`; nothing else is ever invalidated |
| Queries.Mutate | hooks/useApi.ts:29-35 | a successful mutation invalidates the table's prefixes; a failed one marks nothing stale; the caller gets the reply; keys of other resources never change |
| Queries.CompleteJobRefreshesDashboard | hooks/useApi.ts:96-105 | completing a job marks the cached dashboard and every `jobs` entry stale |
| Queries.ListEntriesIndependent | hooks/useApi.ts:14-19 | two list queries with different parameters have different keys, and fetching one leaves the other's entry unchanged |
| Queries.ItemQueryZeroIssuesNothing | hooks/useApi.ts:21-27 | an item query for id 0 issues no request |
| Queries.ItemPathsInjective | hooks/useApi.ts:85-105 | distinct ids give distinct item paths and distinct `/start`, `/complete`, `/send` and `/add-payment` paths |
| Text.Trim | app/invoice/create.tsx:129 | `trim` keeps the slice of the input between its leading and trailing whitespace; the result starts and ends with a non-whitespace character, or is empty exactly when the input is all whitespace |
| Text.TrimIdempotent | app/invoice/create.tsx:129 | trimming a trimmed string changes nothing |
| Text.IsBlank | app/job/create.tsx:72 | `!s.trim()` holds exactly when every character is whitespace |
| Text.OrUndefined | app/customer/create.tsx:57-67 | the `or undefined` idiom gives absent exactly for the empty string and otherwise is the string verbatim |
| Text.IntToString | hooks/useApi.ts:24 | an interpolated safe-integer id is a minus sign exactly for negatives, then decimal digits |
| Text.NatToStringRoundTrip | hooks/useApi.ts:24 | reading back the decimal text of a number gives the number |
| Text.IntToStringInjective | hooks/useApi.ts:24 | distinct ids interpolate to distinct strings |
| Currency.Clean | components/forms/FormCurrency.tsx:28-29 | cleaning leaves only digits and points, keeps a digit or point, and removes any other single character; with `CleanAppend` this fixes the result for every text |
| Currency.CleanAppend | components/forms/FormCurrency.tsx:29 | cleaning works character by character, so it keeps order |
| Currency.Split | components/forms/FormCurrency.tsx:32 | `split('.')` gives at least one piece, no piece contains a point, and the first piece is the text before the first point |
| Currency.JoinSplit | components/forms/FormCurrency.tsx:32 | joining the pieces with points gives the text back |
| Currency.Take2 | components/forms/FormCurrency.tsx:35 | `slice(0, 2)` is the first two characters, or all of them when shorter |
| Currency.SanitiseShape | components/forms/FormCurrency.tsx:27-36 | the displayed text has only digits and points, at most one point and at most two characters after it; its part before the point equals the cleaned input up to its first point; the digits after the point are the first two of the piece between the first and second points |
| Currency.SanitiseKeepsWellFormed | components/forms/FormCurrency.tsx:29-36 | a text that already has the displayed shape is returned unchanged |
| Currency.SanitiseIdempotent | components/forms/FormCurrency.tsx:29-36 | sanitising a displayed text returns it unchanged |
| Currency.SecondPointDropped | components/forms/FormCurrency.tsx:31-36 | `"1.2.3"` is displayed as `"1.2"` |
| Currency.HandleChange | components/forms/FormCurrency.tsx:27-46 | the display is the sanitised text; `""` and `"."` report 0; nothing is reported only for text that neither parses nor is `""`/`"."` |
| Currency.HandleChangeAlwaysReports | components/forms/FormCurrency.tsx:40-45 | every keystroke reports a value: the silent branch cannot be reached |
| Currency.HandleChangeStable | components/forms/FormCurrency.tsx:27-45 | typing the displayed text again shows and reports the same |
| FormErrors.ClearError | app/invoice/create.tsx:62-67 | editing a field blanks that field's message and changes no other entry |
| FormErrors.ClearErrorKeepsClear | app/invoice/create.tsx:62-67 | clearing never adds a message |
| LineItems.ApplyEdit | app/invoice/create.tsx:71 | an edit changes its one field and keeps the id and job link |
| LineItems.UpdateItem | app/invoice/create.tsx:69-73 | only the items whose id matches are edited; the length, the order and every other item are unchanged |
| LineItems.AddItem | app/invoice/create.tsx:75-80 | exactly one blank item is appended (description `''`, quantity 1, price 0, no link) after the unchanged items |
| LineItems.CountId | app/invoice/create.tsx:109 | the count is 0 exactly when no item has the id |
| LineItems.Without | app/invoice/create.tsx:109 | the filter keeps exactly the items with another id and drops as many items as carry the id |
| LineItems.WithoutAppend | app/invoice/create.tsx:107-110 | the filter keeps order: it distributes over concatenation |
| LineItems.RemoveItem | app/invoice/create.tsx:107-110 | removing from a one-item list is a no-op; otherwise it is the id filter `Without`, so exactly the items with the id disappear and the rest keep their order |
| LineItems.ApplyKeepsInvariant | app/invoice/create.tsx:69-110 | each editor action keeps ids unique and the list non-empty when added ids are fresh |
| LineItems.EditorNeverEmpty | app/invoice/create.tsx:37-110 | from a non-empty list with unique ids, any sequence of edits, additions with fresh ids and removals leaves at least one item |
| LineItems.DuplicateIdsCanEmpty | app/invoice/create.tsx:107-110 | with a duplicated id, removing it from a two-item list leaves none |
| LineItems.AnyBlankDescription | app/invoice/create.tsx:129 | true exactly when some item's description is blank after trimming |
| LineItems.ValidateOrder | app/invoice/create.tsx:124-134 | an error under `customer_id` exactly when no customer (or 0) is selected, under `items` exactly when some description is blank; no other keys; valid exactly when neither holds |
| InvoiceForm.Initial | app/invoice/create.tsx:30-41 | the screen opens with no customer, 15% tax, the given dates, no errors and the single item with id `'1'`, empty description, quantity 1, unit price 0 and no job link |
| InvoiceForm.UpdateField | app/invoice/create.tsx:62-67 | the named field is set, every other field and the items are unchanged, and only that field's error is cleared |
| InvoiceForm.AvailableJobs | app/invoice/create.tsx:51-55 | the available jobs are exactly the listed jobs that are not invoiced and, when a customer is selected, belong to that customer |
| InvoiceForm.AvailableJobsAppend | app/invoice/create.tsx:51-55 | the filter keeps list order and multiplicity: it distributes over concatenation |
| Domain.FindById | app/invoice/create.tsx:83 | `find` by id yields the first element carrying the id, or nothing exactly when no element carries it |
| InvoiceForm.JobDescription | app/invoice/create.tsx:88 | the title when non-empty, else the description, else `''` |
| InvoiceForm.AddJobAsItem | app/invoice/create.tsx:82-97 | an id not among the available jobs changes nothing; otherwise one item is appended with quantity 1, the job link, the job's description rule and price |
| InvoiceForm.IneligibleJobNotAdded | app/invoice/create.tsx:51-97 | an invoiced job, or one of another customer, can never be added as an item |
| InvoiceForm.AddJobKeepsInvariant | app/invoice/create.tsx:82-97 | adding a job with a fresh id keeps ids unique and the list non-empty |
| InvoiceForm.LinkOf | app/invoice/create.tsx:149 | a missing or zero job link is sent as null, any other link verbatim |
| InvoiceForm.ItemsPayload | app/invoice/create.tsx:145-150 | the submitted lines map one-to-one, in order, to description, quantity, price and link |
| InvoiceForm.Submit | app/invoice/create.tsx:136-151 | submission stores the validation errors and yields a body exactly when there are none, carrying the form fields and the mapped items |
| InvoiceForm.SubmittedBodyIsValid | app/invoice/create.tsx:124-151 | every body sent names a selected customer and has only non-blank descriptions |
| QuoteForm.Initial | app/quote/create.tsx:28-38 | the screen opens with no customer, the given dates, no errors and the single item with id `'1'`, empty description, quantity 1, unit price 0 and no job link |
| QuoteForm.UpdateField | app/quote/create.tsx:45-50 | the named field is set, the rest and the items are unchanged, and only that field's error is cleared |
| QuoteForm.QuoteItemsStayUnlinked | app/quote/create.tsx:52-68 | the quote editor's update, add and remove never introduce a job link |
| QuoteForm.ItemsPayload | app/quote/create.tsx:94-98 | the submitted lines map one-to-one, in order, to description, quantity and price |
| QuoteForm.Submit | app/quote/create.tsx:74-99 | a body is produced exactly when a customer is selected and every description is non-blank, carrying the form fields and mapped items |
| JobForm.InitialForm | app/job/create.tsx:36-45 | the form opens with an empty title, status `scheduled`, priority `normal`, price 0 and no customer |
| JobForm.StatusOptions | app/job/create.tsx:16-20 | the status picker offers every status except `cancelled`, starting with the initial one |
| JobForm.PriorityOptions | app/job/create.tsx:22-27 | the priority picker offers all four priorities |
| JobForm.UpdateField | app/job/create.tsx:54-59 | the named field is set, every other field is unchanged, and only that field's error is cleared |
| JobForm.AddressOf | app/job/create.tsx:65-66 | the chosen customer's formatted physical address, or `''` when the customer, its address or the formatted text is missing |
| JobForm.HandleCustomerChange | app/job/create.tsx:62-68 | choosing a customer sets `customer_id` and replaces `job_address` by that customer's address; only those two fields and their errors change |
| JobForm.Validate | app/job/create.tsx:70-77 | valid exactly when the title is non-blank after trimming; `title` is the only possible error key |
| JobForm.BuildPayload | app/job/create.tsx:83-92 | the title is sent as typed; an empty description or address is absent; every other field is sent as held |
| JobForm.Submit | app/job/create.tsx:79-92 | a body is produced exactly when the title is non-blank |
| JobForm.NeverSubmitsCancelled | app/job/create.tsx:16-59 | edits made through the pickers never give a job the status `cancelled`, so no body carries it |
| CustomerForm.Set | app/customer/create.tsx:35-36 | setting a field changes that field only |
| CustomerForm.InitialForm | app/customer/create.tsx:20-31 | every field starts as `''` |
| CustomerForm.UpdateField | app/customer/create.tsx:35-40 | only the named field changes, and only its error is cleared |
| CustomerForm.Validate | app/customer/create.tsx:42-49 | valid exactly when the customer name is non-blank after trimming; `customer_name` is the only possible error key |
| CustomerForm.BuildPayload | app/customer/create.tsx:55-68 | the name is sent untrimmed; every optional field is absent when `''` and verbatim otherwise; the address object is always present |
| CustomerForm.Submit | app/customer/create.tsx:51-68 | a body is produced exactly when the name is non-blank |
| CustomerForm.FreshFormRejected | app/customer/create.tsx:20-49 | submitting the untouched form yields only the `customer_name` error |

## Left out

- Internals of axios, expo-secure-store and @tanstack/react-query are not modelled: interceptor registration, request deduplication, cache eviction and async scheduling. Their outcomes are parameters.
- Secure-storage writes and deletes are assumed to succeed. A throwing `setItemAsync` or `deleteItemAsync` would reject `login`, `logout` or the 401 handler. That is a platform failure outside the model.
- Request bodies and query strings are not part of `Session.Request`; a list query's parameters are carried by its cache key. These bodies are the login credentials and the mutation payloads. The form payloads are modelled separately, in the form modules.
- `Auth.CheckAuth`: its own token read and the interceptor's read for the user fetch are assumed to see the same storage outcome. The source reads storage twice.
- Monetary amounts and quantities are integers: prices in cents. IEEE doubles are not modelled. This leaves out `parseFloat` rounding, `toFixed`, `parseInt`, the invoice subtotal, tax and total preview, and line totals.
- `Currency.HandleChange`: the reported value is exact cents. A real `parseFloat` returns a double, which can lose precision for very long inputs. `handleBlur` and the initial `toFixed(2)` display are not modelled.
- `InvoiceForm.AddJobAsItem`: `job.price || 0` is taken as the price. The typed record always has a number, and its NaN case belongs to the unmodelled doubles.
- Dates and locale are opaque parameters. This covers the 14- and 30-day defaults from `Date.now()`, ISO formatting, `Intl.NumberFormat` and the date picker.
- `LineItems.UpdateItem`: only the edits the screens make are modelled: description, quantity and unit price. `updateItem` could set any key, including `id`.
- Ids that are not integers, such as NaN, are not modelled.
- `Text.IntToString`: ids are taken to be safe integers (below 2^53 in magnitude). JavaScript prints numbers from 1e21 upward in exponent form (`${1e21}` is `1e+21`) and cannot hold larger integers exactly; neither is modelled, and every `int` prints as plain digits.
- Rendering is not modelled: styles, `Alert`, `router.back()`, modal and job-selector visibility, and the option labels.
- The mutation's network call after a successful `Submit` is not chained into the form modules. It is modelled once, in `Queries.Mutate`.
- The `useQuery` fetch state machine (idle, fetching, success, error, refetching) belongs to the query library and is not modelled.

=== FILE: auth.dfy ===
/** The auth context of hooks/useAuth.tsx: the signed-in user and the loading
    flag, driven by the Session calls. */
module Auth {
  import opened Wrappers
  import opened Domain
  import opened Session

  datatype AuthState = AuthState(user: Option<User>, isLoading: bool)

  /** The provider's state when it mounts: no user, still loading. */
  const InitialAuth := AuthState(None, true)

  /** The provider's own state together with the secure storage it drives. */
  datatype Provider = Provider(auth: AuthState, store: Store)

  /** One provider transition: the new state, the requests it put on the wire,
      and what the caller's promise settles to. */
  datatype Step = Step(provider: Provider, sent: seq<Request>, outcome: Result<(), HttpError>)

  /** `checkAuth`: reads the token; when a truthy one is found, fetches the
      current user. A failed fetch removes the token and clears the user. The
      promise never rejects and loading always ends. */
  function CheckAuth(p: Provider, readFails: bool, reply: Result<User, HttpError>): (st: Step)
    ensures !st.provider.auth.isLoading
    ensures st.outcome.Success?
    ensures !HasToken(GetToken(p.store, readFails)) ==>
      st.provider.auth.user == p.auth.user && st.provider.store == p.store && st.sent == []
    ensures HasToken(GetToken(p.store, readFails)) ==>
      |st.sent| == 1 && st.sent[0].path == "/auth/user"
      && "Authorization" in st.sent[0].headers
    ensures HasToken(GetToken(p.store, readFails)) && reply.Success? ==>
      st.provider.auth.user == Some(reply.value) && st.provider.store == p.store
    ensures HasToken(GetToken(p.store, readFails)) && reply.Failure? ==>
      st.provider.auth.user.None? && st.provider.store.token.None?
  {
    var token := GetToken(p.store, readFails);
    if HasToken(token) then
      var c := GetCurrentUser(p.store, readFails, reply);
      if reply.Success? then
        Step(Provider(AuthState(Some(reply.value), false), c.store), [c.sent], Success(()))
      else
        Step(Provider(AuthState(None, false), RemoveToken(c.store)), [c.sent], Success(()))
    else
      Step(Provider(p.auth.(isLoading := false), p.store), [], Success(()))
  }

  /** The device name sent with a login, from the current time as ISO text. */
  function DeviceName(isoNow: string): (name: string)
    ensures |name| == 19 + |isoNow| && name[19..] == isoNow
    ensures name[..19] == "TradeMate Mobile - "
  {
    "TradeMate Mobile - " + isoNow
  }

  /** `login`: sets the user from the response; a rejected login leaves the
      user as it was and reaches the caller. */
  function Login(p: Provider, readFails: bool, reply: Result<AuthResponse, HttpError>): (st: Step)
    ensures st.outcome == reply.Discard()
    ensures st.provider.auth.isLoading == p.auth.isLoading
    ensures reply.Success? ==>
      st.provider.auth.user == Some(reply.value.user)
      && st.provider.store.token == Some(reply.value.token)
    ensures reply.Failure? ==> st.provider.auth.user == p.auth.user
  {
    var c := Session.Login(p.store, readFails, reply);
    var user := if reply.Success? then Some(reply.value.user) else p.auth.user;
    Step(Provider(p.auth.(user := user), c.store), [c.sent], reply.Discard())
  }

  /** `logout`: the user is cleared in `finally`, so it is gone (and so is
      the token) even when the server call fails; the failure still rejects. */
  function Logout(p: Provider, readFails: bool, reply: Result<(), HttpError>): (st: Step)
    ensures st.outcome == reply
    ensures st.provider.auth.user.None?
    ensures st.provider.store.token.None?
    ensures st.provider.auth.isLoading == p.auth.isLoading
  {
    var c := Session.Logout(p.store, readFails, reply);
    Step(Provider(p.auth.(user := None), c.store), [c.sent], reply)
  }

  datatype AuthContextValue = AuthContextValue(user: Option<User>, isLoading: bool, isAuthenticated: bool)

  /** The value the provider publishes: `isAuthenticated` is `!!user`. */
  function ContextValue(a: AuthState): (v: AuthContextValue)
    ensures v.user == a.user && v.isLoading == a.isLoading
    ensures v.isAuthenticated <==> a.user.Some?
  {
    AuthContextValue(a.user, a.isLoading, a.user.Some?)
  }

  const OutsideProviderMessage := "useAuth must be used within an AuthProvider"

  /** `useAuth`: the published value, or an error when no provider is above. */
  function UseAuth(ctx: Option<AuthContextValue>): (r: Result<AuthContextValue, string>)
    ensures ctx.None? <==> r.Failure?
    ensures r.Failure? ==> r.error == OutsideProviderMessage
    ensures r.Success? ==> r.value == ctx.value
  {
    match ctx
    case None => Failure(OutsideProviderMessage)
    case Some(v) => Success(v)
  }

  /** A signed-in user always has a token in storage. */
  predicate SessionConsistent(p: Provider) {
    p.auth.user.Some? ==> p.store.token.Some?
  }

  /** `checkAuth`, a successful `login` and `logout` keep the session
      consistent; mounting starts consistent. */
  lemma ProviderTransitionsKeepConsistency(p: Provider, readFails: bool,
                                           user: Result<User, HttpError>, resp: AuthResponse,
                                           bye: Result<(), HttpError>)
    requires SessionConsistent(p)
    ensures SessionConsistent(Provider(InitialAuth, p.store))
    ensures SessionConsistent(CheckAuth(p, readFails, user).provider)
    ensures SessionConsistent(Login(p, readFails, Success(resp)).provider)
    ensures SessionConsistent(Logout(p, readFails, bye).provider)
  {
  }

  /** The consistency is not kept by the code as written: a 401 on any
      request other than the logout POST removes the token, but the provider's
      `user` is only ever cleared by `checkAuth` and `logout`, so the context
      still reports `isAuthenticated`. A failed re-login is one such request. */
  lemma UnauthorizedReplyLeavesStaleUser<T>(p: Provider, readFails: bool, req: Request,
                                            reply: Result<T, HttpError>, e: HttpError)
    requires p.auth.user.Some? && IsUnauthorized(reply) && e.status == Some(401)
    ensures var q := Provider(p.auth, Exchange(p.store, readFails, req, reply).store);
      !SessionConsistent(q) && ContextValue(q.auth).isAuthenticated
    ensures var q := Login(p, readFails, Failure(e)).provider;
      !SessionConsistent(q) && ContextValue(q.auth).isAuthenticated
  {
  }
}

=== FILE: currency.dfy ===
/** The text-cleaning half of FormCurrency's `handleChange`: what the field
    displays after each keystroke, and the value it reports. Reported values
    are exact cents; the double a real `parseFloat` returns is not modelled. */
module Currency {
  import opened Wrappers
  import opened Text

  predicate IsCurrencyChar(c: char) {
    IsDigit(c) || c == '.'
  }

  predicate AllCurrencyChars(s: string) {
    forall i | 0 <= i < |s| :: IsCurrencyChar(s[i])
  }

  /** `text.replace(/[^0-9.]/g, '')`: the digits and points of `text`, in
      order. */
  function Clean(text: string): (r: string)
    ensures AllCurrencyChars(r)
    ensures |r| <= |text|
    ensures AllCurrencyChars(text) ==> r == text
    ensures |text| == 1 && !IsCurrencyChar(text[0]) ==> r == []
  {
    if text == [] then []
    else (if IsCurrencyChar(text[0]) then [text[0]] else []) + Clean(text[1..])
  }

  /** Cleaning keeps order: it works character by character. */
  lemma {:induction false} CleanAppend(a: string, b: string)
    ensures Clean(a + b) == Clean(a) + Clean(b)
    decreases |a|
  {
    if a != [] {
      assert (a + b)[0] == a[0];
      assert (a + b)[1..] == a[1..] + b;
      CleanAppend(a[1..], b);
    } else {
      assert a + b == b;
    }
  }

  /** Position of the first `c` in `s`. */
  function IndexOf(s: string, c: char): (i: nat)
    requires c in s
    ensures i < |s| && s[i] == c && c !in s[..i]
  {
    if s[0] == c then 0 else
      var i := 1 + IndexOf(s[1..], c);
      assert s[..i] == [s[0]] + s[1..][..i - 1];
      i
  }

  /** `s.split('.')`: the pieces between points, never fewer than one. */
  function Split(s: string): (parts: seq<string>)
    ensures |parts| >= 1
    ensures forall k | 0 <= k < |parts| :: '.' !in parts[k]
    ensures '.' !in s ==> parts == [s]
    ensures '.' in s ==> |parts| >= 2 && parts[0] == s[..IndexOf(s, '.')]
    decreases |s|
  {
    if '.' in s then
      var i := IndexOf(s, '.');
      [s[..i]] + Split(s[i + 1..])
    else [s]
  }

  /** `parts.join('.')`. */
  function Join(parts: seq<string>): string
    requires |parts| >= 1
  {
    if |parts| == 1 then parts[0] else parts[0] + "." + Join(parts[1..])
  }

  /** Splitting loses nothing: joining the pieces gives the text back. */
  lemma {:induction false} JoinSplit(s: string)
    ensures Join(Split(s)) == s
    decreases |s|
  {
    if '.' in s {
      var i := IndexOf(s, '.');
      JoinSplit(s[i + 1..]);
      assert s == s[..i] + "." + s[i + 1..];
    }
  }

  /** `parts[1].slice(0, 2)`. */
  function Take2(s: string): (r: string)
    ensures |r| <= 2 && |r| == (if |s| < 2 then |s| else 2) && r == s[..|r|]
  {
    if |s| <= 2 then s else s[..2]
  }

  /** The displayed text after a keystroke: the cleaned text's whole part,
      then, if it had a point, the point and at most two digits of the piece
      after it; anything after a second point is dropped. */
  function Sanitise(text: string): (r: string)
  {
    var parts := Split(Clean(text));
    parts[0] + (if |parts| > 1 then "." + Take2(parts[1]) else "")
  }

  /** The shape of a displayed amount: digits, then optionally one point
      followed by at most two digits. */
  predicate WellFormed(r: string) {
    && AllCurrencyChars(r)
    && ('.' in r ==> '.' !in r[IndexOf(r, '.') + 1..] && |r| - IndexOf(r, '.') - 1 <= 2)
  }

  /** The text before the first point (all of it when there is none). */
  function WholePart(s: string): (w: string)
    ensures '.' !in w
  {
    if '.' in s then s[..IndexOf(s, '.')] else s
  }

  lemma IndexOfAfterPrefix(a: string, b: string)
    requires '.' !in a
    ensures '.' in a + "." + b && IndexOf(a + "." + b, '.') == |a|
  {
    var s := a + "." + b;
    assert s[|a|] == '.';
    var i := IndexOf(s, '.');
    assert forall k | 0 <= k < |a| :: s[k] == a[k];
    assert forall k | |a| < k <= |s| :: s[..k][|a|] == '.';
  }

  /** Every displayed text is well formed, and its whole part is the cleaned
      input up to its first point; it has a point exactly when the cleaned
      input does. */
  lemma SanitiseShape(text: string)
    ensures WellFormed(Sanitise(text))
    ensures WholePart(Sanitise(text)) == WholePart(Clean(text))
    ensures '.' in Sanitise(text) <==> '.' in Clean(text)
    ensures '.' in Sanitise(text) ==>
      Sanitise(text)[IndexOf(Sanitise(text), '.') + 1..] == Take2(Split(Clean(text))[1])
  {
    var c := Clean(text);
    var parts := Split(c);
    var r := Sanitise(text);
    if |parts| > 1 {
      var b := Take2(parts[1]);
      assert forall j | 0 <= j < |b| :: b[j] == parts[1][j];
      assert r == parts[0] + "." + b;
      IndexOfAfterPrefix(parts[0], b);
      assert r[|parts[0]| + 1..] == b;
      assert AllCurrencyChars(r) by {
        forall i | 0 <= i < |r| ensures IsCurrencyChar(r[i]) {
          if i < |parts[0]| {
            assert r[i] == parts[0][i] == c[i];
          } else if i > |parts[0]| {
            assert r[i] == b[i - |parts[0]| - 1] == parts[1][i - |parts[0]| - 1];
            assert parts[1][i - |parts[0]| - 1] in parts[1];
            assert '.' in c;
            SplitSecondAllCurrency(c);
          }
        }
      }
      assert '.' in c;
    } else {
      assert '.' !in c;
      assert r == c;
    }
  }

  /** Every character of the second piece comes from the cleaned text. */
  lemma SplitSecondAllCurrency(c: string)
    requires '.' in c && AllCurrencyChars(c)
    ensures AllCurrencyChars(Split(c)[1])
  {
  }

  /** A well-formed text is left as it is. */
  lemma SanitiseKeepsWellFormed(r: string)
    requires WellFormed(r)
    ensures Sanitise(r) == r
  {
  }

  /** Sanitising is idempotent: a displayed text is displayed unchanged. */
  lemma SanitiseIdempotent(text: string)
    ensures Sanitise(Sanitise(text)) == Sanitise(text)
  {
    SanitiseShape(text);
    SanitiseKeepsWellFormed(Sanitise(text));
  }

  /** The fraction digits of a well-formed text (empty without a point). */
  function Fraction(f: string): (d: string)
    requires WellFormed(f)
    ensures |d| <= 2 && AllDigits(d)
  {
    if '.' in f then
      var d := f[IndexOf(f, '.') + 1..];
      assert forall k | 0 <= k < |d| :: d[k] in f[IndexOf(f, '.') + 1..];
      d
    else ""
  }

  /** Whether `parseFloat` finds a number at the start of `f`: a digit, or a
      point followed by a digit. */
  predicate ParsesAsNumber(f: string) {
    |f| > 0 && (IsDigit(f[0]) || (|f| > 1 && f[0] == '.' && IsDigit(f[1])))
  }

  /** The exact value of a well-formed text, in cents. */
  function Cents(f: string): nat
    requires WellFormed(f)
  {
    var w := WholePart(f);
    assert AllDigits(w) by {
      assert forall k | 0 <= k < |w| :: w[k] == f[k];
    }
    var d := Fraction(f);
    var frac := if |d| == 0 then 0 else if |d| == 1 then DigitValue(d[0]) * 10 else DigitsValue(d);
    DigitsValue(w) * 100 + frac
  }

  /** What one keystroke yields: the text shown, and the value passed to
      `onChange` when it is called. */
  datatype Change = Change(display: string, emitted: Option<nat>)

  /** `handleChange`: shows the sanitised text and reports its value; a text
      `parseFloat` rejects reports 0 when it is `""` or `"."` and nothing
      otherwise. */
  function HandleChange(text: string): (c: Change)
    ensures c.display == Sanitise(text)
    ensures (c.display == "" || c.display == ".") ==> c.emitted == Some(0)
    ensures c.emitted.None? ==> !ParsesAsNumber(c.display) && c.display != "" && c.display != "."
  {
    var f := Sanitise(text);
    SanitiseShape(text);
    var emitted :=
      if ParsesAsNumber(f) then Some(Cents(f))
      else if f == "" || f == "." then Some(0)
      else None;
    Change(f, emitted)
  }

  /** The silent branch of `handleChange` is unreachable: every keystroke
      reports a value, because a well-formed text other than `""` and `"."`
      always starts a number. */
  lemma HandleChangeAlwaysReports(text: string)
    ensures HandleChange(text).emitted.Some?
  {
  }

  /** Re-entering the displayed text shows and reports exactly the same. */
  lemma HandleChangeStable(text: string)
    ensures HandleChange(HandleChange(text).display) == HandleChange(text)
  {
    SanitiseIdempotent(text);
  }

  /** Example from the field's behaviour: a second point and everything after
      it are dropped. */
  lemma SecondPointDropped()
    ensures Sanitise("1.2.3") == "1.2"
  {
  }
}

=== FILE: customer_form.dfy ===
/** The customer create screen: ten text fields, all empty at first, a
    required customer name, and a body in which empty optional fields are
    sent as absent. */
module CustomerForm {
  import opened Wrappers
  import opened Text
  import opened FormErrors

  datatype Field =
    | CustomerName | ContactName | EmailAddress | PhoneNumber | MobileNumber
    | Street | City | Region | PostalCode | Notes

  /** The field's key in the form state and in the errors map. */
  function FieldName(f: Field): string {
    match f
    case CustomerName => "customer_name"
    case ContactName => "contact_name"
    case EmailAddress => "email_address"
    case PhoneNumber => "phone_number"
    case MobileNumber => "mobile_number"
    case Street => "street"
    case City => "city"
    case Region => "region"
    case PostalCode => "postal_code"
    case Notes => "notes"
  }

  datatype Form = Form(
    customerName: string,
    contactName: string,
    emailAddress: string,
    phoneNumber: string,
    mobileNumber: string,
    street: string,
    city: string,
    region: string,
    postalCode: string,
    notes: string)

  function Get(form: Form, f: Field): string {
    match f
    case CustomerName => form.customerName
    case ContactName => form.contactName
    case EmailAddress => form.emailAddress
    case PhoneNumber => form.phoneNumber
    case MobileNumber => form.mobileNumber
    case Street => form.street
    case City => form.city
    case Region => form.region
    case PostalCode => form.postalCode
    case Notes => form.notes
  }

  /** `{ ...prev, [field]: value }`. */
  function Set(form: Form, f: Field, v: string): (r: Form)
    ensures Get(r, f) == v
    ensures forall g | g != f :: Get(r, g) == Get(form, g)
  {
    match f
    case CustomerName => form.(customerName := v)
    case ContactName => form.(contactName := v)
    case EmailAddress => form.(emailAddress := v)
    case PhoneNumber => form.(phoneNumber := v)
    case MobileNumber => form.(mobileNumber := v)
    case Street => form.(street := v)
    case City => form.(city := v)
    case Region => form.(region := v)
    case PostalCode => form.(postalCode := v)
    case Notes => form.(notes := v)
  }

  /** The form as the screen opens: every field empty. */
  function InitialForm(): (form: Form)
    ensures forall g :: Get(form, g) == ""
  {
    Form("", "", "", "", "", "", "", "", "", "")
  }

  datatype Screen = Screen(form: Form, errors: Errors)

  /** `updateField`: changes only the named field and clears only its error. */
  function UpdateField(s: Screen, f: Field, v: string): (r: Screen)
    ensures Get(r.form, f) == v
    ensures forall g | g != f :: Get(r.form, g) == Get(s.form, g)
    ensures r.errors.Keys == s.errors.Keys
    ensures FieldName(f) in r.errors ==> r.errors[FieldName(f)] == ""
    ensures forall k | k in s.errors && k != FieldName(f) :: r.errors[k] == s.errors[k]
  {
    Screen(Set(s.form, f, v), ClearError(s.errors, FieldName(f)))
  }

  const NameRequired := "Customer name is required"

  /** `validate`: the only possible error is a blank customer name. */
  function Validate(form: Form): (errs: Errors)
    ensures errs.Keys <= {"customer_name"}
    ensures errs == map[] <==> !IsBlank(form.customerName)
    ensures "customer_name" in errs ==> errs["customer_name"] == NameRequired
  {
    if IsBlank(form.customerName) then
      var errs := map["customer_name" := NameRequired];
      assert "customer_name" in errs;
      errs
    else map[]
  }

  datatype AddressPayload = AddressPayload(
    street: Option<string>, city: Option<string>, region: Option<string>, postalCode: Option<string>)

  datatype Payload = Payload(
    customerName: string,
    contactName: Option<string>,
    emailAddress: Option<string>,
    phoneNumber: Option<string>,
    mobileNumber: Option<string>,
    physicalAddress: AddressPayload,
    notes: Option<string>)

  /** The value the body holds for an optional field. */
  function Sent(p: Payload, f: Field): Option<string>
    requires f != CustomerName
  {
    match f
    case ContactName => p.contactName
    case EmailAddress => p.emailAddress
    case PhoneNumber => p.phoneNumber
    case MobileNumber => p.mobileNumber
    case Street => p.physicalAddress.street
    case City => p.physicalAddress.city
    case Region => p.physicalAddress.region
    case PostalCode => p.physicalAddress.postalCode
    case Notes => p.notes
  }

  /** The body of `handleSubmit`: the name exactly as typed (not trimmed),
      every other field absent when empty and verbatim otherwise, and the
      address object present even when all its parts are absent. */
  function BuildPayload(form: Form): (p: Payload)
    ensures p.customerName == form.customerName
    ensures forall g | g != CustomerName :: (Sent(p, g).None? <==> Get(form, g) == "")
    ensures forall g | g != CustomerName && Sent(p, g).Some? :: Sent(p, g).value == Get(form, g)
    ensures form.street == form.city == form.region == form.postalCode == "" ==>
      p.physicalAddress == AddressPayload(None, None, None, None)
  {
    Payload(
      form.customerName,
      OrUndefined(form.contactName),
      OrUndefined(form.emailAddress),
      OrUndefined(form.phoneNumber),
      OrUndefined(form.mobileNumber),
      AddressPayload(OrUndefined(form.street), OrUndefined(form.city),
                     OrUndefined(form.region), OrUndefined(form.postalCode)),
      OrUndefined(form.notes))
  }

  /** `handleSubmit` up to the network. */
  function Submit(s: Screen): (r: Submission<Payload>)
    ensures r.errors == Validate(s.form)
    ensures r.payload.Some? <==> !IsBlank(s.form.customerName)
    ensures r.payload.Some? ==> r.payload.value == BuildPayload(s.form)
  {
    var errs := Validate(s.form);
    if errs == map[] then Submission(errs, Some(BuildPayload(s.form))) else Submission(errs, None)
  }

  /** A fresh screen cannot be submitted: the empty name is blank. */
  lemma FreshFormRejected()
    ensures Submit(Screen(InitialForm(), map[])).payload.None?
    ensures Submit(Screen(InitialForm(), map[])).errors == map["customer_name" := NameRequired]
  {
  }
}

=== FILE: domain.dfy ===
/** The server records the app's screens and auth layer read: the subset of
    fields that the modelled logic looks at. Amounts are whole cents. */
module Domain {
  import opened Wrappers

  datatype JobStatus = Scheduled | InProgress | Complete | Cancelled
  datatype JobPriority = Low | Normal | High | Urgent
  datatype User = User(id: int, name: string, email: string, role: string, active: bool)

  datatype Address = Address(
    street: Option<string>,
    city: Option<string>,
    region: Option<string>,
    postalCode: Option<string>,
    country: Option<string>,
    formatted: Option<string>)

  /** A customer as listed by the server. The address is optional because the
      screens read it through `?.`. */
  datatype Customer = Customer(id: int, customerName: string, physicalAddress: Option<Address>)

  datatype CustomerSummary = CustomerSummary(id: int, customerName: string)

  datatype Job = Job(
    id: int,
    title: string,
    description: Option<string>,
    status: JobStatus,
    priority: JobPriority,
    price: int,
    invoiced: bool,
    customer: Option<CustomerSummary>)

  /** The body of a successful `POST /auth/login`. */
  datatype AuthResponse = AuthResponse(message: string, user: User, token: string)

  /** An opaque point in time (the source's `Date`); nothing here computes with it. */
  type Date = int

  /** Array `find` by id, as an index: the first element whose id is `id`,
      or none when no element carries it. */
  function FindById<T>(xs: seq<T>, idOf: T -> int, id: int): (r: Option<nat>)
    ensures r.Some? ==> r.value < |xs| && idOf(xs[r.value]) == id
                        && forall k | 0 <= k < r.value :: idOf(xs[k]) != id
    ensures r.None? <==> forall k | 0 <= k < |xs| :: idOf(xs[k]) != id
  {
    if xs == [] then None
    else if idOf(xs[0]) == id then Some(0)
    else
      var r := FindById(xs[1..], idOf, id);
      assert forall k | 1 <= k < |xs| :: xs[k] == xs[1..][k - 1];
      if r.Some? then Some(r.value + 1) else None
  }
}

=== FILE: form_errors.dfy ===
/** The error bookkeeping the four create screens share: a map from field
    name to message, cleared per field as the user edits, and replaced
    wholesale by `validate`. */
module FormErrors {
  import opened Wrappers

  type Errors = map<string, string>

  /** The error half of `updateField`: a field with a (truthy) message gets
      `''`; absent or already-empty entries and every other field stay. */
  function ClearError(errors: Errors, field: string): (r: Errors)
    ensures r.Keys == errors.Keys
    ensures field in r ==> r[field] == ""
    ensures forall g | g in errors && g != field :: r[g] == errors[g]
  {
    if field in errors && errors[field] != "" then errors[field := ""] else errors
  }

  /** No field shows an error: every message is absent or empty. */
  predicate Clear(errors: Errors) {
    forall g | g in errors :: errors[g] == ""
  }

  /** Clearing only ever removes messages. */
  lemma ClearErrorKeepsClear(errors: Errors, field: string)
    requires Clear(errors)
    ensures ClearError(errors, field) == errors
  {
  }

  /** What `handleSubmit` does before the network: the errors `validate`
      stored, and the payload when validation passed. */
  datatype Submission<P> = Submission(errors: Errors, payload: Option<P>)
}

=== FILE: invoice_form.dfy ===
/** The invoice create screen: its form fields, the line-item editor with
    completed jobs as a source of items, validation and the submitted body.
    Dates are opaque; the subtotal/tax preview is not modelled. */
module InvoiceForm {
  import opened Wrappers
  import opened Text
  import opened Domain
  import opened FormErrors
  import opened LineItems

  const DefaultTaxRate := 15

  datatype Form = Form(customerId: Option<int>, invoiceDate: Date, dueDate: Date, taxRate: int)

  datatype Screen = Screen(form: Form, items: seq<LineItem>, errors: Errors)

  /** The screen as it opens: no customer, 15% tax, one blank item, no errors. */
  function Initial(today: Date, dueDate: Date): (s: Screen)
    ensures s.form.customerId.None? && s.form.taxRate == DefaultTaxRate
    ensures s.form.invoiceDate == today && s.form.dueDate == dueDate
    ensures s.items == [LineItem("1", "", 1, 0, None)]
    ensures s.errors == map[]
  {
    Screen(Form(None, today, dueDate, DefaultTaxRate), InitialItems(), map[])
  }

  datatype FieldEdit =
    | SetCustomer(customerId: Option<int>)
    | SetInvoiceDate(invoiceDate: Date)
    | SetDueDate(dueDate: Date)
    | SetTaxRate(taxRate: int)

  function FieldName(e: FieldEdit): string {
    match e
    case SetCustomer(_) => "customer_id"
    case SetInvoiceDate(_) => "invoice_date"
    case SetDueDate(_) => "due_date"
    case SetTaxRate(_) => "tax_rate"
  }

  /** `updateField`: sets the one field and clears that field's error only;
      the items are untouched. */
  function UpdateField(s: Screen, e: FieldEdit): (r: Screen)
    ensures r.items == s.items
    ensures r.form.customerId == (if e.SetCustomer? then e.customerId else s.form.customerId)
    ensures r.form.invoiceDate == (if e.SetInvoiceDate? then e.invoiceDate else s.form.invoiceDate)
    ensures r.form.dueDate == (if e.SetDueDate? then e.dueDate else s.form.dueDate)
    ensures r.form.taxRate == (if e.SetTaxRate? then e.taxRate else s.form.taxRate)
    ensures r.errors.Keys == s.errors.Keys
    ensures FieldName(e) in r.errors ==> r.errors[FieldName(e)] == ""
    ensures forall g | g in s.errors && g != FieldName(e) :: r.errors[g] == s.errors[g]
  {
    var form := match e
      case SetCustomer(c) => s.form.(customerId := c)
      case SetInvoiceDate(d) => s.form.(invoiceDate := d)
      case SetDueDate(d) => s.form.(dueDate := d)
      case SetTaxRate(t) => s.form.(taxRate := t);
    Screen(form, s.items, ClearError(s.errors, FieldName(e)))
  }

  /** The job filter: not yet invoiced and, when a customer is selected,
      belonging to that customer. */
  predicate Eligible(j: Job, customerId: Option<int>) {
    && !j.invoiced
    && (CustomerSelected(customerId) ==> j.customer.Some? && j.customer.value.id == customerId.value)
  }

  /** `availableJobs`: the eligible jobs, in their listed order. */
  function AvailableJobs(jobs: seq<Job>, customerId: Option<int>): (r: seq<Job>)
    ensures |r| <= |jobs|
    ensures forall j :: j in r <==> j in jobs && Eligible(j, customerId)
  {
    if jobs == [] then []
    else (if Eligible(jobs[0], customerId) then [jobs[0]] else []) + AvailableJobs(jobs[1..], customerId)
  }

  /** The filter keeps order and multiplicity: it distributes over
      concatenation, so `find` over the result meets the jobs in list order. */
  lemma {:induction false} AvailableJobsAppend(a: seq<Job>, b: seq<Job>, customerId: Option<int>)
    ensures AvailableJobs(a + b, customerId) == AvailableJobs(a, customerId) + AvailableJobs(b, customerId)
    decreases |a|
  {
    if a == [] {
      assert a + b == b;
    } else {
      assert (a + b)[0] == a[0];
      assert (a + b)[1..] == a[1..] + b;
      AvailableJobsAppend(a[1..], b, customerId);
    }
  }

  /** `job.title || job.description || ''`. */
  function JobDescription(job: Job): (d: string)
    ensures job.title != "" ==> d == job.title
    ensures job.title == "" ==> d == job.description.GetOr("")
    ensures d == "" <==> job.title == "" && (job.description.None? || job.description.value == "")
  {
    if job.title != "" then job.title
    else if job.description.Some? && job.description.value != "" then job.description.value
    else ""
  }

  /** `addJobAsItem`: when the id names an available job, appends one item
      linked to it (quantity 1, the job's description and price); otherwise
      the list is unchanged. */
  function AddJobAsItem(items: seq<LineItem>, available: seq<Job>, jobId: int, freshId: string): (r: seq<LineItem>)
    ensures (forall k | 0 <= k < |available| :: available[k].id != jobId) ==> r == items
    ensures (exists k | 0 <= k < |available| :: available[k].id == jobId) ==>
      && |r| == |items| + 1 && r[..|items|] == items
      && r[|items|].id == freshId && r[|items|].jobId == Some(jobId) && r[|items|].quantity == 1
      && var job := available[FindById(available, (j: Job) => j.id, jobId).value];
         r[|items|].description == JobDescription(job) && r[|items|].unitPrice == job.price
  {
    match FindById(available, (j: Job) => j.id, jobId)
    case None => items
    case Some(i) =>
      var job := available[i];
      items + [LineItem(freshId, JobDescription(job), 1, job.price, Some(job.id))]
  }

  /** An invoiced job, or a job of another customer, can never be added. */
  lemma {:induction false} IneligibleJobNotAdded(items: seq<LineItem>, jobs: seq<Job>, customerId: Option<int>,
                                                 jobId: int, freshId: string)
    requires forall k | 0 <= k < |jobs| :: jobs[k].id == jobId ==> !Eligible(jobs[k], customerId)
    ensures AddJobAsItem(items, AvailableJobs(jobs, customerId), jobId, freshId) == items
  {
    var av := AvailableJobs(jobs, customerId);
    forall k | 0 <= k < |av| ensures av[k].id != jobId {
      assert av[k] in av;
      assert av[k] in jobs && Eligible(av[k], customerId);
    }
  }

  /** Adding a job with a fresh id keeps the editor's ids unique and its list
      non-empty, like every other editor action. */
  lemma AddJobKeepsInvariant(items: seq<LineItem>, available: seq<Job>, jobId: int, freshId: string)
    requires UniqueIds(items) && |items| >= 1 && Fresh(items, freshId)
    ensures UniqueIds(AddJobAsItem(items, available, jobId, freshId))
    ensures |AddJobAsItem(items, available, jobId, freshId)| >= 1
  {
  }

  /** One line of the submitted body. */
  datatype ItemPayload = ItemPayload(description: string, quantity: int, unitPrice: int, jobId: Option<int>)

  datatype Payload = Payload(customerId: Option<int>, invoiceDate: Date, dueDate: Date, taxRate: int, items: seq<ItemPayload>)

  /** `job_id: item.job_id || null`: a missing or zero link becomes null. */
  function LinkOf(jobId: Option<int>): (r: Option<int>)
    ensures r.Some? <==> jobId.Some? && jobId.value != 0
    ensures r.Some? ==> r.value == jobId.value
  {
    if jobId.Some? && jobId.value != 0 then jobId else None
  }

  /** The item mapping of `handleSubmit`: one line per item, in order. */
  function ItemsPayload(items: seq<LineItem>): (r: seq<ItemPayload>)
    ensures |r| == |items|
    ensures forall i | 0 <= i < |items| ::
      r[i] == ItemPayload(items[i].description, items[i].quantity, items[i].unitPrice, LinkOf(items[i].jobId))
  {
    seq(|items|, i requires 0 <= i < |items| =>
      ItemPayload(items[i].description, items[i].quantity, items[i].unitPrice, LinkOf(items[i].jobId)))
  }

  /** `handleSubmit` up to the network: validation replaces the errors, and
      only a screen without errors produces a body. */
  function Submit(s: Screen): (r: Submission<Payload>)
    ensures r.errors == ValidateOrder(s.form.customerId, s.items)
    ensures r.payload.Some? <==> r.errors == map[]
    ensures r.payload.Some? ==>
      && r.payload.value.customerId == s.form.customerId
      && r.payload.value.invoiceDate == s.form.invoiceDate
      && r.payload.value.dueDate == s.form.dueDate
      && r.payload.value.taxRate == s.form.taxRate
      && r.payload.value.items == ItemsPayload(s.items)
  {
    var errs := ValidateOrder(s.form.customerId, s.items);
    if errs == map[] then
      Submission(errs, Some(Payload(s.form.customerId, s.form.invoiceDate, s.form.dueDate, s.form.taxRate, ItemsPayload(s.items))))
    else Submission(errs, None)
  }

  /** A body is only ever sent for a selected customer and for items that
      all have a non-blank description. */
  lemma SubmittedBodyIsValid(s: Screen)
    ensures Submit(s).payload.Some? ==>
      var p := Submit(s).payload.value;
      && CustomerSelected(p.customerId)
      && |p.items| == |s.items|
      && forall i | 0 <= i < |p.items| :: !IsBlank(p.items[i].description)
  {
  }
}

=== FILE: job_form.dfy ===
/** The job create screen: the initial form, field edits, choosing a customer
    (which fills in the job address), validation and the submitted body. */
module JobForm {
  import opened Wrappers
  import opened Text
  import opened Domain
  import opened FormErrors

  datatype Form = Form(
    title: string,
    description: string,
    customerId: Option<int>,
    status: JobStatus,
    priority: JobPriority,
    scheduledAt: Option<Date>,
    price: int,
    jobAddress: string)

  datatype Screen = Screen(form: Form, errors: Errors)

  /** The form as the screen opens. */
  function InitialForm(): (f: Form)
    ensures f.title == "" && f.description == "" && f.jobAddress == ""
    ensures f.customerId.None? && f.scheduledAt.None?
    ensures f.status == Scheduled && f.priority == Normal && f.price == 0
  {
    Form("", "", None, Scheduled, Normal, None, 0, "")
  }

  /** The statuses the status picker offers: every status but `cancelled`,
      starting with `scheduled`. */
  function StatusOptions(): (opts: seq<JobStatus>)
    ensures forall st :: st in opts <==> st != Cancelled
    ensures |opts| == 3 && opts[0] == InitialForm().status
  {
    var opts := [Scheduled, InProgress, Complete];
    assert forall st :: st in opts <==> st != Cancelled by {
      forall st: JobStatus ensures st in opts <==> st != Cancelled {
        if st.Scheduled? {
          assert opts[0] == st;
        } else if st.InProgress? {
          assert opts[1] == st;
        } else if st.Complete? {
          assert opts[2] == st;
        }
      }
    }
    opts
  }

  /** The priorities the priority picker offers: all four. */
  function PriorityOptions(): (opts: seq<JobPriority>)
    ensures forall p :: p in opts
    ensures |opts| == 4 && InitialForm().priority in opts
  {
    var opts := [Low, Normal, High, Urgent];
    assert forall p :: p in opts by {
      forall p: JobPriority ensures p in opts {
        if p.Low? {
          assert opts[0] == p;
        } else if p.Normal? {
          assert opts[1] == p;
        } else if p.High? {
          assert opts[2] == p;
        } else {
          assert opts[3] == p;
        }
      }
    }
    opts
  }

  datatype FieldEdit =
    | SetTitle(title: string)
    | SetDescription(description: string)
    | SetCustomer(customerId: Option<int>)
    | SetStatus(status: JobStatus)
    | SetPriority(priority: JobPriority)
    | SetScheduledAt(scheduledAt: Option<Date>)
    | SetPrice(price: int)
    | SetJobAddress(jobAddress: string)

  function FieldName(e: FieldEdit): string {
    match e
    case SetTitle(_) => "title"
    case SetDescription(_) => "description"
    case SetCustomer(_) => "customer_id"
    case SetStatus(_) => "status"
    case SetPriority(_) => "priority"
    case SetScheduledAt(_) => "scheduled_at"
    case SetPrice(_) => "price"
    case SetJobAddress(_) => "job_address"
  }

  function SetField(f: Form, e: FieldEdit): Form {
    match e
    case SetTitle(v) => f.(title := v)
    case SetDescription(v) => f.(description := v)
    case SetCustomer(v) => f.(customerId := v)
    case SetStatus(v) => f.(status := v)
    case SetPriority(v) => f.(priority := v)
    case SetScheduledAt(v) => f.(scheduledAt := v)
    case SetPrice(v) => f.(price := v)
    case SetJobAddress(v) => f.(jobAddress := v)
  }

  /** `updateField`: sets the one field and clears that field's error only. */
  function UpdateField(s: Screen, e: FieldEdit): (r: Screen)
    ensures r.form.title == (if e.SetTitle? then e.title else s.form.title)
    ensures r.form.description == (if e.SetDescription? then e.description else s.form.description)
    ensures r.form.customerId == (if e.SetCustomer? then e.customerId else s.form.customerId)
    ensures r.form.status == (if e.SetStatus? then e.status else s.form.status)
    ensures r.form.priority == (if e.SetPriority? then e.priority else s.form.priority)
    ensures r.form.scheduledAt == (if e.SetScheduledAt? then e.scheduledAt else s.form.scheduledAt)
    ensures r.form.price == (if e.SetPrice? then e.price else s.form.price)
    ensures r.form.jobAddress == (if e.SetJobAddress? then e.jobAddress else s.form.jobAddress)
    ensures r.errors.Keys == s.errors.Keys
    ensures FieldName(e) in r.errors ==> r.errors[FieldName(e)] == ""
    ensures forall g | g in s.errors && g != FieldName(e) :: r.errors[g] == s.errors[g]
  {
    Screen(SetField(s.form, e), ClearError(s.errors, FieldName(e)))
  }

  /** `selectedCustomer?.physical_address?.formatted || ''`. */
  function AddressOf(customers: seq<Customer>, id: int): (a: string)
    ensures FindById(customers, (c: Customer) => c.id, id).None? ==> a == ""
    ensures FindById(customers, (c: Customer) => c.id, id).Some? ==>
      var c := customers[FindById(customers, (c: Customer) => c.id, id).value];
      a == (if c.physicalAddress.Some? then c.physicalAddress.value.formatted.GetOr("") else "")
  {
    match FindById(customers, (c: Customer) => c.id, id)
    case None => ""
    case Some(i) =>
      var c := customers[i];
      if c.physicalAddress.Some? && c.physicalAddress.value.formatted.Some? then c.physicalAddress.value.formatted.value
      else ""
  }

  /** `handleCustomerChange`: selects the customer and replaces the job
      address by that customer's formatted address (or `''`), clearing the
      two fields' errors; nothing else changes. */
  function HandleCustomerChange(s: Screen, customers: seq<Customer>, id: int): (r: Screen)
    ensures r.form == s.form.(customerId := Some(id), jobAddress := AddressOf(customers, id))
    ensures r.errors.Keys == s.errors.Keys
    ensures "customer_id" in r.errors ==> r.errors["customer_id"] == ""
    ensures "job_address" in r.errors ==> r.errors["job_address"] == ""
    ensures forall g | g in s.errors && g != "customer_id" && g != "job_address" :: r.errors[g] == s.errors[g]
  {
    var s1 := UpdateField(s, SetCustomer(Some(id)));
    UpdateField(s1, SetJobAddress(AddressOf(customers, id)))
  }

  const TitleRequired := "Job title is required"

  /** `validate`: the only possible error is a blank title. */
  function Validate(f: Form): (errs: Errors)
    ensures errs.Keys <= {"title"}
    ensures errs == map[] <==> !IsBlank(f.title)
    ensures "title" in errs ==> errs["title"] == TitleRequired
  {
    if IsBlank(f.title) then
      var errs := map["title" := TitleRequired];
      assert "title" in errs;
      errs
    else map[]
  }

  datatype Payload = Payload(
    title: string,
    description: Option<string>,
    customerId: Option<int>,
    status: JobStatus,
    priority: JobPriority,
    scheduledAt: Option<Date>,
    price: int,
    jobAddress: Option<string>)

  /** The body of `handleSubmit`: the title as typed, an empty description
      or address sent as absent, everything else as held by the form. */
  function BuildPayload(f: Form): (p: Payload)
    ensures p.title == f.title
    ensures p.description.None? <==> f.description == ""
    ensures p.description.Some? ==> p.description.value == f.description
    ensures p.jobAddress.None? <==> f.jobAddress == ""
    ensures p.jobAddress.Some? ==> p.jobAddress.value == f.jobAddress
    ensures p.customerId == f.customerId && p.status == f.status && p.priority == f.priority
    ensures p.scheduledAt == f.scheduledAt && p.price == f.price
  {
    Payload(f.title, OrUndefined(f.description), f.customerId, f.status, f.priority,
            f.scheduledAt, f.price, OrUndefined(f.jobAddress))
  }

  /** `handleSubmit` up to the network. */
  function Submit(s: Screen): (r: Submission<Payload>)
    ensures r.errors == Validate(s.form)
    ensures r.payload.Some? <==> !IsBlank(s.form.title)
    ensures r.payload.Some? ==> r.payload.value == BuildPayload(s.form)
  {
    var errs := Validate(s.form);
    if errs == map[] then Submission(errs, Some(BuildPayload(s.form))) else Submission(errs, None)
  }

  /** An edit a user can make through the screen's pickers. */
  predicate Offered(e: FieldEdit) {
    e.SetStatus? ==> e.status in StatusOptions()
  }

  function ApplyEdits(s: Screen, edits: seq<FieldEdit>): Screen
    decreases |edits|
  {
    if edits == [] then s else ApplyEdits(UpdateField(s, edits[0]), edits[1..])
  }

  /** Starting from the initial form, edits made through the pickers never
      produce a cancelled job: a submitted body never has status
      `cancelled`. */
  lemma {:induction false} NeverSubmitsCancelled(s: Screen, edits: seq<FieldEdit>)
    requires s.form.status != Cancelled
    requires forall i | 0 <= i < |edits| :: Offered(edits[i])
    ensures ApplyEdits(s, edits).form.status != Cancelled
    ensures var r := Submit(ApplyEdits(s, edits)); r.payload.Some? ==> r.payload.value.status != Cancelled
    decreases |edits|
  {
    if edits != [] {
      assert Offered(edits[0]);
      NeverSubmitsCancelled(UpdateField(s, edits[0]), edits[1..]);
    }
  }
}

=== FILE: line_items.dfy ===
/** The line-item editor of the invoice and quote screens: update a field of
    the items with an id, append a blank item, remove the items with an id
    unless only one item is left. Fresh ids (the source's
    `Date.now().toString()`) are parameters. */
module LineItems {
  import opened Wrappers
  import opened Text
  import opened FormErrors

  /** A line being edited. Quote lines never carry a job link. */
  datatype LineItem = LineItem(id: string, description: string, quantity: int, unitPrice: int, jobId: Option<int>)

  /** The edits the screens make through `updateItem`. */
  datatype ItemEdit = SetDescription(description: string) | SetQuantity(quantity: int) | SetUnitPrice(unitPrice: int)

  /** `{ ...item, [field]: value }`: the one field changes, the rest stay. */
  function ApplyEdit(item: LineItem, e: ItemEdit): (r: LineItem)
    ensures r.id == item.id && r.jobId == item.jobId
    ensures r.description == (if e.SetDescription? then e.description else item.description)
    ensures r.quantity == (if e.SetQuantity? then e.quantity else item.quantity)
    ensures r.unitPrice == (if e.SetUnitPrice? then e.unitPrice else item.unitPrice)
  {
    match e
    case SetDescription(d) => item.(description := d)
    case SetQuantity(q) => item.(quantity := q)
    case SetUnitPrice(p) => item.(unitPrice := p)
  }

  /** The item each screen starts with and `addItem` appends. */
  function BlankItem(id: string): LineItem {
    LineItem(id, "", 1, 0, None)
  }

  /** The editor's initial list: one blank item with id `'1'`. */
  function InitialItems(): seq<LineItem> {
    [BlankItem("1")]
  }

  /** `updateItem`: the items with the id get the edit; the length, the order
      and every other item are unchanged. */
  function UpdateItem(items: seq<LineItem>, id: string, e: ItemEdit): (r: seq<LineItem>)
    ensures |r| == |items|
    ensures forall i | 0 <= i < |items| ::
      r[i] == (if items[i].id == id then ApplyEdit(items[i], e) else items[i])
  {
    if items == [] then []
    else [if items[0].id == id then ApplyEdit(items[0], e) else items[0]] + UpdateItem(items[1..], id, e)
  }

  /** `addItem`: exactly one blank item appended after the existing ones. */
  function AddItem(items: seq<LineItem>, freshId: string): (r: seq<LineItem>)
    ensures |r| == |items| + 1 && r[..|items|] == items
    ensures r[|items|].id == freshId && r[|items|].description == ""
    ensures r[|items|].quantity == 1 && r[|items|].unitPrice == 0 && r[|items|].jobId.None?
  {
    items + [BlankItem(freshId)]
  }

  /** How many items carry the id. */
  function CountId(items: seq<LineItem>, id: string): (n: nat)
    ensures n <= |items|
    ensures n == 0 <==> forall i | 0 <= i < |items| :: items[i].id != id
  {
    if items == [] then 0 else (if items[0].id == id then 1 else 0) + CountId(items[1..], id)
  }

  /** `items.filter(item => item.id !== id)`. */
  function Without(items: seq<LineItem>, id: string): (r: seq<LineItem>)
    ensures forall x :: x in r <==> x in items && x.id != id
    ensures |r| + CountId(items, id) == |items|
  {
    if items == [] then []
    else (if items[0].id == id then [] else [items[0]]) + Without(items[1..], id)
  }

  /** The filter keeps order: it distributes over concatenation. */
  lemma {:induction false} WithoutAppend(a: seq<LineItem>, b: seq<LineItem>, id: string)
    ensures Without(a + b, id) == Without(a, id) + Without(b, id)
    decreases |a|
  {
    if a == [] {
      assert a + b == b;
    } else {
      assert (a + b)[0] == a[0];
      assert (a + b)[1..] == a[1..] + b;
      WithoutAppend(a[1..], b, id);
    }
  }

  /** `removeItem`: a no-op on a one-item list; otherwise exactly the items
      with the id disappear. */
  function RemoveItem(items: seq<LineItem>, id: string): (r: seq<LineItem>)
    ensures |items| == 1 ==> r == items
    ensures |items| != 1 ==> r == Without(items, id)
    ensures |items| != 1 ==> (forall x :: x in r <==> x in items && x.id != id)
    ensures |items| != 1 ==> |r| == |items| - CountId(items, id)
  {
    if |items| == 1 then items else Without(items, id)
  }

  predicate UniqueIds(items: seq<LineItem>) {
    forall i, j | 0 <= i < j < |items| :: items[i].id != items[j].id
  }

  predicate Fresh(items: seq<LineItem>, id: string) {
    forall i | 0 <= i < |items| :: items[i].id != id
  }

  lemma {:induction false} UniqueCountAtMostOne(items: seq<LineItem>, id: string)
    requires UniqueIds(items)
    ensures CountId(items, id) <= 1
    decreases |items|
  {
    if items != [] {
      UniqueCountAtMostOne(items[1..], id);
      if items[0].id == id {
        assert forall i | 0 <= i < |items[1..]| :: items[1..][i].id == items[i + 1].id != id;
      }
    }
  }

  lemma {:induction false} WithoutKeepsUnique(items: seq<LineItem>, id: string)
    requires UniqueIds(items)
    ensures UniqueIds(Without(items, id))
    decreases |items|
  {
    if items != [] {
      var rest := Without(items[1..], id);
      WithoutKeepsUnique(items[1..], id);
      if items[0].id == id {
        assert Without(items, id) == rest;
      } else {
        forall j | 0 <= j < |rest| ensures rest[j].id != items[0].id {
          assert rest[j] in items[1..];
          var k :| 0 <= k < |items[1..]| && items[1..][k] == rest[j];
          assert items[k + 1] == rest[j];
        }
        var r := Without(items, id);
        assert r == [items[0]] + rest;
        forall i, j | 0 <= i < j < |r| ensures r[i].id != r[j].id {
          assert r[j] == rest[j - 1];
          if i > 0 {
            assert r[i] == rest[i - 1];
          }
        }
      }
    }
  }

  /** `items.some(item => !item.description.trim())`. */
  function AnyBlankDescription(items: seq<LineItem>): (b: bool)
    ensures b <==> exists i | 0 <= i < |items| :: IsBlank(items[i].description)
  {
    if items == [] then false
    else
      assert forall i | 1 <= i < |items| :: items[i] == items[1..][i - 1];
      IsBlank(items[0].description) || AnyBlankDescription(items[1..])
  }

  const CustomerRequired := "Customer is required"
  const ItemsNeedDescriptions := "All items must have a description"

  /** `!form.customer_id` fails: a customer other than 0 is selected. */
  predicate CustomerSelected(customerId: Option<int>) {
    customerId.Some? && customerId.value != 0
  }

  /** `validate` of the invoice and quote screens: an error under
      `customer_id` when no customer is selected (absent or 0), one under
      `items` when some description is blank after trimming, nothing else. */
  function ValidateOrder(customerId: Option<int>, items: seq<LineItem>): (errs: Errors)
    ensures errs.Keys <= {"customer_id", "items"}
    ensures "customer_id" in errs <==> !CustomerSelected(customerId)
    ensures "items" in errs <==> exists i | 0 <= i < |items| :: IsBlank(items[i].description)
    ensures forall k | k in errs :: errs[k] != ""
    ensures errs == map[] <==>
      (CustomerSelected(customerId)
       && forall i | 0 <= i < |items| :: !IsBlank(items[i].description))
  {
    var e1: Errors := if !CustomerSelected(customerId) then map["customer_id" := CustomerRequired] else map[];
    var e2 := if AnyBlankDescription(items) then e1["items" := ItemsNeedDescriptions] else e1;
    assert "customer_id" in e2 ==> e2 != map[];
    assert "items" in e2 ==> e2 != map[];
    e2
  }

  /** One user action on the editor. */
  datatype EditorOp = Update(id: string, e: ItemEdit) | Add(freshId: string) | Remove(id: string)

  function Apply(items: seq<LineItem>, op: EditorOp): seq<LineItem> {
    match op
    case Update(id, e) => UpdateItem(items, id, e)
    case Add(freshId) => AddItem(items, freshId)
    case Remove(id) => RemoveItem(items, id)
  }

  /** Every added id is new to the list it is added to. */
  predicate FreshIds(items: seq<LineItem>, ops: seq<EditorOp>)
    decreases |ops|
  {
    ops == [] || ((ops[0].Add? ==> Fresh(items, ops[0].freshId)) && FreshIds(Apply(items, ops[0]), ops[1..]))
  }

  function ApplyAll(items: seq<LineItem>, ops: seq<EditorOp>): seq<LineItem>
    decreases |ops|
  {
    if ops == [] then items else ApplyAll(Apply(items, ops[0]), ops[1..])
  }

  /** One action keeps the ids unique and the list non-empty. */
  lemma ApplyKeepsInvariant(items: seq<LineItem>, op: EditorOp)
    requires UniqueIds(items) && |items| >= 1
    requires op.Add? ==> Fresh(items, op.freshId)
    ensures UniqueIds(Apply(items, op)) && |Apply(items, op)| >= 1
  {
    match op
    case Update(id, e) =>
    case Add(freshId) =>
    case Remove(id) =>
      if |items| != 1 {
        UniqueCountAtMostOne(items, id);
        WithoutKeepsUnique(items, id);
      }
  }

  /** Starting from the initial list, with fresh ids for added items, the
      editor always shows at least one item and ids stay unique, so the
      one-item guard of `removeItem` is what keeps the list non-empty. */
  lemma {:induction false} EditorNeverEmpty(items: seq<LineItem>, ops: seq<EditorOp>)
    requires UniqueIds(items) && |items| >= 1
    requires FreshIds(items, ops)
    ensures UniqueIds(ApplyAll(items, ops)) && |ApplyAll(items, ops)| >= 1
    decreases |ops|
  {
    if ops != [] {
      ApplyKeepsInvariant(items, ops[0]);
      EditorNeverEmpty(Apply(items, ops[0]), ops[1..]);
    }
  }

  /** Without unique ids the guard is not enough: removing a duplicated id
      from a two-item list empties it. */
  lemma DuplicateIdsCanEmpty()
    ensures RemoveItem([BlankItem("a"), BlankItem("a")], "a") == []
  {
  }
}

=== FILE: queries.dfy ===
/** The query/mutation layer of hooks/useApi.ts: cache keys, the `enabled`
    guard of item queries, each mutation's endpoint, and the static table of
    key prefixes a successful mutation invalidates. The query cache is a map
    from key to a stale flag. */
module Queries {
  import opened Wrappers
  import opened Text
  import opened Session

  datatype Resource = Dashboard | Customers | Jobs | Invoices | Quotes

  /** The first segment of a cache key, and the collection's path segment. */
  function ResourceName(r: Resource): string {
    match r
    case Dashboard => "dashboard"
    case Customers => "customers"
    case Jobs => "jobs"
    case Invoices => "invoices"
    case Quotes => "quotes"
  }

  /** The four resources with list and item queries. */
  predicate IsCollection(r: Resource) {
    r != Dashboard
  }

  function CollectionPath(r: Resource): string {
    "/" + ResourceName(r)
  }

  datatype ParamValue = PStr(s: string) | PBool(b: bool) | PNum(n: int)

  /** Filter parameters of a list query; an absent key is an unset option. */
  type Params = map<string, ParamValue>

  /** A cache key: `[resource]`, `[resource, params]` or `[resource, id]`. */
  datatype QueryKey =
    | RootKey(root: Resource)
    | ListKey(root: Resource, params: Option<Params>)
    | ItemKey(root: Resource, id: int)

  /** A declared query: its key, whether it may run, and the GET it issues.
      A list query sends its key's parameters with that GET. */
  datatype Query = Query(key: QueryKey, enabled: bool, fetch: Request)

  /** `useDashboard`. */
  function DashboardQuery(): (q: Query)
    ensures q.key == RootKey(Dashboard) && q.enabled
    ensures q.fetch.verb == Get && q.fetch.path == "/dashboard/stats"
  {
    Query(RootKey(Dashboard), true, NewRequest(Get, "/dashboard/stats"))
  }

  /** `useCustomers`, `useJobs`, `useInvoices`, `useQuotes`: keyed by the
      resource and the exact parameters, which are also sent with the GET. */
  function ListQuery(r: Resource, params: Option<Params>): (q: Query)
    requires IsCollection(r)
    ensures q.key.ListKey? && q.key.root == r && q.key.params == params
    ensures q.enabled
    ensures q.fetch.verb == Get && q.fetch.path == CollectionPath(r)
  {
    Query(ListKey(r, params), true, NewRequest(Get, CollectionPath(r)))
  }

  function ItemPath(r: Resource, id: int): string {
    CollectionPath(r) + "/" + IntToString(id)
  }

  /** `useCustomer`, `useJob`, `useInvoice`, `useQuote`: keyed by the id and
      enabled only for a truthy (non-zero) id. */
  function ItemQuery(r: Resource, id: int): (q: Query)
    requires IsCollection(r)
    ensures q.key.ItemKey? && q.key.root == r && q.key.id == id
    ensures q.enabled <==> id != 0
    ensures q.fetch.verb == Get && q.fetch.path == ItemPath(r, id)
  {
    Query(ItemKey(r, id), id != 0, NewRequest(Get, ItemPath(r, id)))
  }

  /** The request the query library issues for a query: none when disabled. */
  function Issued(q: Query): (req: Option<Request>)
    ensures req.Some? <==> q.enabled
    ensures req.Some? ==> req.value == q.fetch
  {
    if q.enabled then Some(q.fetch) else None
  }

  /** The cache: every key fetched so far, flagged true when stale. */
  type Cache = map<QueryKey, bool>

  /** Stores a query's result: a successful fetch of an enabled query makes
      its own entry fresh; nothing else in the cache changes. */
  function Populate<T>(c: Cache, q: Query, reply: Result<T, HttpError>): (c': Cache)
    ensures forall k | k in c && k != q.key :: k in c' && c'[k] == c[k]
    ensures c'.Keys <= c.Keys + {q.key}
    ensures q.enabled && reply.Success? ==> q.key in c' && !c'[q.key]
    ensures !q.enabled || reply.Failure? ==> c' == c
  {
    if q.enabled && reply.Success? then c[q.key := false] else c
  }

  /** `invalidateQueries` for a set of prefixes: every key whose first segment
      is one of them turns stale, every other entry is untouched. */
  function Invalidate(c: Cache, prefixes: set<Resource>): (c': Cache)
    ensures c'.Keys == c.Keys
    ensures forall k | k in c && k.root in prefixes :: c'[k]
    ensures forall k | k in c && k.root !in prefixes :: c'[k] == c[k]
  {
    map k | k in c :: if k.root in prefixes then true else c[k]
  }

  datatype Mutation =
    | CreateCustomer
    | UpdateCustomer(id: int)
    | CreateJob
    | UpdateJob(id: int)
    | StartJob(id: int)
    | CompleteJob(id: int)
    | CreateInvoice
    | SendInvoice(id: int)
    | AddPayment(id: int, amount: int, payMethod: string)
    | CreateQuote

  /** The resource a mutation writes. */
  function Owner(m: Mutation): Resource {
    match m
    case CreateCustomer | UpdateCustomer(_) => Customers
    case CreateJob | UpdateJob(_) | StartJob(_) | CompleteJob(_) => Jobs
    case CreateInvoice | SendInvoice(_) | AddPayment(_, _, _) => Invoices
    case CreateQuote => Quotes
  }

  predicate IsCreate(m: Mutation) {
    m.CreateCustomer? || m.CreateJob? || m.CreateInvoice? || m.CreateQuote?
  }

  predicate IsUpdate(m: Mutation) {
    m.UpdateCustomer? || m.UpdateJob?
  }

  /** The trailing action segment of a mutation on an existing record. */
  function Action(m: Mutation): string {
    match m
    case StartJob(_) => "/start"
    case CompleteJob(_) => "/complete"
    case SendInvoice(_) => "/send"
    case AddPayment(_, _, _) => "/add-payment"
    case _ => ""
  }

  /** The write each mutation performs: creates POST to the collection,
      updates PUT to the item, actions POST to `<item>/<action>`; every path
      lies under the collection of the resource the mutation writes. */
  function Endpoint(m: Mutation): (req: Request)
    ensures IsCollection(Owner(m))
    ensures req.verb == (if IsUpdate(m) then Put else Post)
    ensures |req.path| >= |CollectionPath(Owner(m))|
    ensures req.path[..|CollectionPath(Owner(m))|] == CollectionPath(Owner(m))
    ensures req.path == CollectionPath(Owner(m)) <==> IsCreate(m)
    ensures "Authorization" !in req.headers
  {
    var path := if IsCreate(m) then CollectionPath(Owner(m))
                else ItemPath(Owner(m), m.id) + Action(m);
    assert !IsCreate(m) ==> path[..|CollectionPath(Owner(m))|] == CollectionPath(Owner(m));
    NewRequest(if IsUpdate(m) then Put else Post, path)
  }

  /** The concrete URL of every write: the collection for a create, the item
      for an update, and the item followed by the action name for the four
      job and invoice actions. */
  lemma EndpointPaths(m: Mutation)
    ensures !IsCreate(m) ==> Endpoint(m).path == ItemPath(Owner(m), m.id) + Action(m)
    ensures m.CreateCustomer? ==> Endpoint(m).path == "/customers"
    ensures m.CreateJob? ==> Endpoint(m).path == "/jobs"
    ensures m.CreateInvoice? ==> Endpoint(m).path == "/invoices"
    ensures m.CreateQuote? ==> Endpoint(m).path == "/quotes"
    ensures m.UpdateCustomer? ==> Endpoint(m).path == "/customers/" + IntToString(m.id)
    ensures m.UpdateJob? ==> Endpoint(m).path == "/jobs/" + IntToString(m.id)
    ensures m.StartJob? ==> Endpoint(m).path == "/jobs/" + IntToString(m.id) + "/start"
    ensures m.CompleteJob? ==> Endpoint(m).path == "/jobs/" + IntToString(m.id) + "/complete"
    ensures m.SendInvoice? ==> Endpoint(m).path == "/invoices/" + IntToString(m.id) + "/send"
    ensures m.AddPayment? ==> Endpoint(m).path == "/invoices/" + IntToString(m.id) + "/add-payment"
  {
    if !IsCreate(m) {
      ItemPathSpelled(m.id);
      assert Endpoint(m).path == ItemPath(Owner(m), m.id) + Action(m);
    }
  }

  /** The item paths of the three writable collections, spelled out. */
  lemma ItemPathSpelled(id: int)
    ensures ItemPath(Customers, id) == "/customers/" + IntToString(id)
    ensures ItemPath(Jobs, id) == "/jobs/" + IntToString(id)
    ensures ItemPath(Invoices, id) == "/invoices/" + IntToString(id)
  {
    assert CollectionPath(Customers) + "/" == "/customers/";
    assert CollectionPath(Jobs) + "/" == "/jobs/";
    assert CollectionPath(Invoices) + "/" == "/invoices/";
  }

  /** The mutations whose `onSuccess` also refreshes the dashboard. */
  predicate TouchesDashboard(m: Mutation) {
    m.CreateJob? || m.UpdateJob? || m.StartJob? || m.CompleteJob? || m.CreateInvoice? || m.AddPayment?
  }

  /** The invalidation table: every mutation invalidates its own resource's
      prefix, job writes and invoice create/payment also `dashboard`, and no
      mutation reaches any other prefix. */
  function Invalidates(m: Mutation): (ps: set<Resource>)
    ensures Owner(m) in ps
    ensures Dashboard in ps <==> TouchesDashboard(m)
    ensures ps <= {Owner(m), Dashboard}
  {
    match m
    case CreateCustomer | UpdateCustomer(_) => {Customers}
    case CreateJob | UpdateJob(_) | StartJob(_) | CompleteJob(_) => {Jobs, Dashboard}
    case CreateInvoice | AddPayment(_, _, _) => {Invoices, Dashboard}
    case SendInvoice(_) => {Invoices}
    case CreateQuote => {Quotes}
  }

  datatype MutationOutcome<T> = MutationOutcome(call: Call<T>, cache: Cache)

  /** `mutateAsync`: the write goes through the gateway; only a success runs
      `onSuccess` and invalidates, so a failed mutation leaves the cache as it
      was. The promise settles to the server's reply either way. */
  function Mutate<T>(s: Store, readFails: bool, c: Cache, m: Mutation, reply: Result<T, HttpError>): (o: MutationOutcome<T>)
    ensures o.call.result == reply
    ensures o.call.sent.verb == Endpoint(m).verb && o.call.sent.path == Endpoint(m).path
    ensures reply.Success? ==> o.cache == Invalidate(c, Invalidates(m))
    ensures reply.Failure? ==> o.cache == c
    ensures forall k | k in c && k.root != Owner(m) && k.root != Dashboard :: k in o.cache && o.cache[k] == c[k]
  {
    var call := Exchange(s, readFails, Endpoint(m), reply);
    MutationOutcome(call, if reply.Success? then Invalidate(c, Invalidates(m)) else c)
  }

  /** Completing a job marks every cached `jobs` entry and the dashboard
      stale, so both are refetched. */
  lemma CompleteJobRefreshesDashboard<T>(s: Store, c: Cache, id: int, v: T)
    ensures var o := Mutate(s, false, c, CompleteJob(id), Success(v));
      (RootKey(Dashboard) in c ==> o.cache[RootKey(Dashboard)])
      && (forall k | k in c && k.root == Jobs :: o.cache[k])
  {
  }

  /** Two list queries of one resource with different parameters use
      different keys, so fetching one leaves the other's entry as it was. */
  lemma ListEntriesIndependent<T>(c: Cache, r: Resource, p1: Option<Params>, p2: Option<Params>, reply: Result<T, HttpError>)
    requires IsCollection(r) && p1 != p2
    ensures ListQuery(r, p1).key != ListQuery(r, p2).key
    ensures var k := ListQuery(r, p2).key;
      k in c ==> k in Populate(c, ListQuery(r, p1), reply) && Populate(c, ListQuery(r, p1), reply)[k] == c[k]
  {
  }

  /** An item query for id 0 never reaches the network. */
  lemma ItemQueryZeroIssuesNothing(r: Resource)
    requires IsCollection(r)
    ensures Issued(ItemQuery(r, 0)).None?
  {
  }

  lemma CancelPrefix(p: string, x: string, y: string)
    requires p + x == p + y
    ensures x == y
  {
    assert x == (p + x)[|p|..];
  }

  lemma CancelSuffix(x: string, y: string, q: string)
    requires x + q == y + q
    ensures x == y
  {
    assert x == (x + q)[..|x|];
  }

  /** Distinct ids give distinct item and action paths, so requests for
      different records never collide. */
  lemma {:induction false} ItemPathsInjective(m: Mutation, a: int, b: int)
    requires !IsCreate(m) && a != b
    ensures ItemPath(Owner(m), a) != ItemPath(Owner(m), b)
    ensures Endpoint(m.(id := a)).path != Endpoint(m.(id := b)).path
  {
    IntToStringInjective(a, b);
    var p := CollectionPath(Owner(m)) + "/";
    assert ItemPath(Owner(m), a) == p + IntToString(a);
    assert ItemPath(Owner(m), b) == p + IntToString(b);
    if ItemPath(Owner(m), a) == ItemPath(Owner(m), b) {
      CancelPrefix(p, IntToString(a), IntToString(b));
    }
    if Endpoint(m.(id := a)).path == Endpoint(m.(id := b)).path {
      CancelSuffix(ItemPath(Owner(m), a), ItemPath(Owner(m), b), Action(m));
    }
  }
}

=== FILE: quote_form.dfy ===
/** The quote create screen: the same editor as invoices without job links,
    the same validation, and a body whose lines carry no link at all. */
module QuoteForm {
  import opened Wrappers
  import opened Text
  import opened Domain
  import opened FormErrors
  import opened LineItems

  datatype Form = Form(customerId: Option<int>, quoteDate: Date, dueDate: Date)

  datatype Screen = Screen(form: Form, items: seq<LineItem>, errors: Errors)

  /** The screen as it opens: no customer, one blank item, no errors. */
  function Initial(today: Date, validUntil: Date): (s: Screen)
    ensures s.form.customerId.None? && s.form.quoteDate == today && s.form.dueDate == validUntil
    ensures s.items == [LineItem("1", "", 1, 0, None)]
    ensures s.errors == map[]
  {
    Screen(Form(None, today, validUntil), InitialItems(), map[])
  }

  datatype FieldEdit = SetCustomer(customerId: Option<int>) | SetQuoteDate(quoteDate: Date) | SetDueDate(dueDate: Date)

  function FieldName(e: FieldEdit): string {
    match e
    case SetCustomer(_) => "customer_id"
    case SetQuoteDate(_) => "quote_date"
    case SetDueDate(_) => "due_date"
  }

  /** `updateField`: sets the one field and clears that field's error only. */
  function UpdateField(s: Screen, e: FieldEdit): (r: Screen)
    ensures r.items == s.items
    ensures r.form.customerId == (if e.SetCustomer? then e.customerId else s.form.customerId)
    ensures r.form.quoteDate == (if e.SetQuoteDate? then e.quoteDate else s.form.quoteDate)
    ensures r.form.dueDate == (if e.SetDueDate? then e.dueDate else s.form.dueDate)
    ensures r.errors.Keys == s.errors.Keys
    ensures FieldName(e) in r.errors ==> r.errors[FieldName(e)] == ""
    ensures forall g | g in s.errors && g != FieldName(e) :: r.errors[g] == s.errors[g]
  {
    var form := match e
      case SetCustomer(c) => s.form.(customerId := c)
      case SetQuoteDate(d) => s.form.(quoteDate := d)
      case SetDueDate(d) => s.form.(dueDate := d);
    Screen(form, s.items, ClearError(s.errors, FieldName(e)))
  }

  predicate Unlinked(items: seq<LineItem>) {
    forall i | 0 <= i < |items| :: items[i].jobId.None?
  }

  /** The quote screen's `updateItem`, `addItem` and `removeItem` never
      introduce a job link: from the initial list every reachable list is
      unlinked. */
  lemma {:induction false} QuoteItemsStayUnlinked(items: seq<LineItem>, ops: seq<EditorOp>)
    requires Unlinked(items)
    ensures Unlinked(ApplyAll(items, ops))
    decreases |ops|
  {
    if ops != [] {
      var next := Apply(items, ops[0]);
      assert Unlinked(next) by {
        match ops[0]
        case Update(id, e) =>
        case Add(f) =>
        case Remove(id) =>
          forall i | 0 <= i < |next| ensures next[i].jobId.None? {
            assert next[i] in next;
          }
      }
      QuoteItemsStayUnlinked(next, ops[1..]);
    }
  }

  /** One line of the submitted body: `{description, quantity, unit_price}`. */
  datatype ItemPayload = ItemPayload(description: string, quantity: int, unitPrice: int)

  datatype Payload = Payload(customerId: Option<int>, quoteDate: Date, dueDate: Date, items: seq<ItemPayload>)

  function ItemsPayload(items: seq<LineItem>): (r: seq<ItemPayload>)
    ensures |r| == |items|
    ensures forall i | 0 <= i < |items| ::
      r[i] == ItemPayload(items[i].description, items[i].quantity, items[i].unitPrice)
  {
    seq(|items|, i requires 0 <= i < |items| =>
      ItemPayload(items[i].description, items[i].quantity, items[i].unitPrice))
  }

  /** `validate` then `handleSubmit` up to the network: a body exactly when a
      customer is selected and every description is non-blank. */
  function Submit(s: Screen): (r: Submission<Payload>)
    ensures r.errors == ValidateOrder(s.form.customerId, s.items)
    ensures r.payload.Some? <==>
      (CustomerSelected(s.form.customerId)
       && forall i | 0 <= i < |s.items| :: !IsBlank(s.items[i].description))
    ensures r.payload.Some? ==>
      && r.payload.value.customerId == s.form.customerId
      && r.payload.value.quoteDate == s.form.quoteDate
      && r.payload.value.dueDate == s.form.dueDate
      && r.payload.value.items == ItemsPayload(s.items)
  {
    var errs := ValidateOrder(s.form.customerId, s.items);
    if errs == map[] then
      Submission(errs, Some(Payload(s.form.customerId, s.form.quoteDate, s.form.dueDate, ItemsPayload(s.items))))
    else Submission(errs, None)
  }
}

=== FILE: session.dfy ===
/** The API gateway of services/api.ts: the secure-storage token, the request
    step that attaches it, the response step that drops it on 401, and the
    login/logout/current-user calls built on them. The HTTP reply and a failing
    storage read are parameters (abstract outcomes); storage writes succeed. */
module Session {
  import opened Wrappers
  import opened Domain

  /** The local development host used when no API URL is configured. */
  const DefaultApiBaseUrl := "http://localhost:8000"
  const ApiPrefix := "/api/v1"
  const BearerPrefix := "Bearer "

  /** The client's `baseURL`: the configured host, or the local development
      host when the variable is unset or empty (`||`), then the version prefix. */
  function BaseUrl(env: Option<string>): (url: string)
    ensures env.Some? && env.value != "" ==> url == env.value + ApiPrefix
    ensures env.None? || env.value == "" ==> url == DefaultApiBaseUrl + ApiPrefix
  {
    var host := if env.Some? && env.value != "" then env.value else DefaultApiBaseUrl;
    host + ApiPrefix
  }

  /** The secure-storage contents: the token, when one is stored. */
  datatype Store = Store(token: Option<string>)

  /** `getToken`: the stored token, or nothing when the storage read throws. */
  function GetToken(s: Store, readFails: bool): (t: Option<string>)
    ensures readFails ==> t.None?
    ensures !readFails ==> t == s.token
  {
    if readFails then None else s.token
  }

  /** `setToken`. */
  function SetToken(s: Store, token: string): (s': Store)
    ensures GetToken(s', false) == Some(token)
  {
    Store(Some(token))
  }

  /** `removeToken`: deleting an absent entry is harmless. */
  function RemoveToken(s: Store): (s': Store)
    ensures GetToken(s', false).None?
  {
    Store(None)
  }

  datatype Verb = Get | Post | Put | Delete

  datatype Request = Request(verb: Verb, path: string, headers: map<string, string>)

  /** The two JSON headers every request starts with. */
  function DefaultHeaders(): (h: map<string, string>)
    ensures "Authorization" !in h
    ensures h.Keys == {"Content-Type", "Accept"}
    ensures forall k | k in h :: h[k] == "application/json"
  {
    map["Content-Type" := "application/json", "Accept" := "application/json"]
  }

  /** A request as a verb method of the client builds it, before interception. */
  function NewRequest(verb: Verb, path: string): (r: Request)
    ensures r.verb == verb && r.path == path && "Authorization" !in r.headers
  {
    Request(verb, path, DefaultHeaders())
  }

  /** True when `token` is a JavaScript-truthy value: present and non-empty. */
  predicate HasToken(token: Option<string>) {
    token.Some? && token.value != ""
  }

  /** The request interceptor: sets `Authorization: Bearer <token>` when a
      truthy token was read and leaves the request untouched otherwise. */
  function AttachToken(req: Request, token: Option<string>): (r: Request)
    ensures r.verb == req.verb && r.path == req.path
    ensures HasToken(token) ==>
      "Authorization" in r.headers && r.headers["Authorization"] == BearerPrefix + token.value
    ensures !HasToken(token) ==> r == req
    ensures forall k | k in req.headers && k != "Authorization" :: k in r.headers && r.headers[k] == req.headers[k]
    ensures r.headers.Keys <= req.headers.Keys + {"Authorization"}
  {
    if HasToken(token) then
      req.(headers := req.headers["Authorization" := BearerPrefix + token.value])
    else req
  }

  /** An HTTP failure: the response status when a response arrived, none for
      a network failure, and the server's message. */
  datatype HttpError = HttpError(status: Option<int>, message: string)

  predicate IsUnauthorized<T>(reply: Result<T, HttpError>) {
    reply.Failure? && reply.error.status == Some(401)
  }

  /** The outcome of one call: what went on the wire, the storage afterwards,
      and what the caller's promise settles to. */
  datatype Call<T> = Call(sent: Request, store: Store, result: Result<T, HttpError>)

  /** The response interceptor: successes pass through; every error is
      rejected to the caller unchanged, and a 401 first removes the token. */
  function OnResponse<T>(s: Store, reply: Result<T, HttpError>): (s': Store)
    ensures IsUnauthorized(reply) ==> s'.token.None?
    ensures !IsUnauthorized(reply) ==> s' == s
  {
    if IsUnauthorized(reply) then RemoveToken(s) else s
  }

  /** One request through both interceptors, the server answering `reply`. */
  function Exchange<T>(s: Store, readFails: bool, req: Request, reply: Result<T, HttpError>): (c: Call<T>)
    ensures c.sent == AttachToken(req, GetToken(s, readFails))
    ensures c.result == reply
    ensures IsUnauthorized(reply) ==> c.store.token.None?
    ensures !IsUnauthorized(reply) ==> c.store == s
  {
    Call(AttachToken(req, GetToken(s, readFails)), OnResponse(s, reply), reply)
  }

  /** `login`: posts the credentials; on success stores the returned token and
      resolves to the response body, on failure rejects with the same error. */
  function Login(s: Store, readFails: bool, reply: Result<AuthResponse, HttpError>): (c: Call<AuthResponse>)
    ensures c.sent.verb == Post && c.sent.path == "/auth/login"
    ensures c.result == reply
    ensures reply.Success? ==> c.store.token == Some(reply.value.token)
    ensures IsUnauthorized(reply) ==> c.store.token.None?
    ensures reply.Failure? && !IsUnauthorized(reply) ==> c.store == s
  {
    var c := Exchange(s, readFails, NewRequest(Post, "/auth/login"), reply);
    if reply.Success? then c.(store := SetToken(c.store, reply.value.token)) else c
  }

  /** `logout`: posts the notification and removes the token in `finally`, so
      the token is gone either way while a failure still reaches the caller. */
  function Logout(s: Store, readFails: bool, reply: Result<(), HttpError>): (c: Call<()>)
    ensures c.sent.verb == Post && c.sent.path == "/auth/logout"
    ensures c.store.token.None?
    ensures c.result == reply
  {
    var c := Exchange(s, readFails, NewRequest(Post, "/auth/logout"), reply);
    c.(store := RemoveToken(c.store))
  }

  /** `getCurrentUser`: `GET /auth/user`, resolving to the `user` field. */
  function GetCurrentUser(s: Store, readFails: bool, reply: Result<User, HttpError>): (c: Call<User>)
    ensures c.sent.verb == Get && c.sent.path == "/auth/user"
    ensures c.result == reply
    ensures IsUnauthorized(reply) ==> c.store.token.None?
    ensures !IsUnauthorized(reply) ==> c.store == s
  {
    Exchange(s, readFails, NewRequest(Get, "/auth/user"), reply)
  }

  /** A request made while a truthy token is stored and readable carries
      exactly `Bearer <token>`; with no token stored it carries no
      Authorization header at all. */
  lemma AuthorizationFollowsStore(s: Store, verb: Verb, path: string)
    ensures HasToken(s.token) ==>
      var r := AttachToken(NewRequest(verb, path), GetToken(s, false));
      "Authorization" in r.headers && r.headers["Authorization"] == BearerPrefix + s.token.value
    ensures s.token.None? ==> "Authorization" !in AttachToken(NewRequest(verb, path), GetToken(s, false)).headers
  {
  }

  /** After a successful login the next token read returns exactly the token
      the server handed out. */
  lemma LoginThenGetToken(s: Store, readFails: bool, resp: AuthResponse)
    ensures GetToken(Login(s, readFails, Success(resp)).store, false) == Some(resp.token)
  {
  }
}

=== FILE: text.dfy ===
/** String helpers with JavaScript's meaning: `String.prototype.trim`, the
    `s || undefined` idiom, and the decimal rendering of an integer inside a
    template literal. */
module Text {
  import opened Wrappers

  /** The code points ECMAScript's `trim` removes: WhiteSpace and LineTerminator. */
  predicate IsWhitespace(c: char) {
    || c == '\t' || c == '\n' || c == '\U{000B}' || c == '\U{000C}' || c == '\r'
    || c == ' ' || c == '\U{00A0}' || c == '\U{1680}'
    || ('\U{2000}' <= c <= '\U{200A}')
    || c == '\U{2028}' || c == '\U{2029}' || c == '\U{202F}' || c == '\U{205F}'
    || c == '\U{3000}' || c == '\U{FEFF}'
  }

  predicate IsDigit(c: char) {
    '0' <= c <= '9'
  }

  predicate AllWhitespace(s: string) {
    forall i | 0 <= i < |s| :: IsWhitespace(s[i])
  }

  predicate AllDigits(s: string) {
    forall i | 0 <= i < |s| :: IsDigit(s[i])
  }

  /** `s` with its leading whitespace removed: a suffix of `s` that is empty
      exactly when `s` is all whitespace. */
  function TrimStart(s: string): (r: string)
    ensures |r| <= |s| && r == s[|s| - |r|..]
    ensures r == [] || !IsWhitespace(r[0])
    ensures forall i | 0 <= i < |s| - |r| :: IsWhitespace(s[i])
    ensures r == [] <==> AllWhitespace(s)
  {
    if |s| > 0 && IsWhitespace(s[0]) then TrimStart(s[1..]) else s
  }

  /** `s` with its trailing whitespace removed: a prefix of `s` that is empty
      exactly when `s` is all whitespace. */
  function TrimEnd(s: string): (r: string)
    ensures |r| <= |s| && r == s[..|r|]
    ensures r == [] || !IsWhitespace(r[|r| - 1])
    ensures forall i | |r| <= i < |s| :: IsWhitespace(s[i])
    ensures r == [] <==> AllWhitespace(s)
  {
    if |s| > 0 && IsWhitespace(s[|s| - 1]) then TrimEnd(s[..|s| - 1]) else s
  }

  /** How many whitespace characters `trim` cuts from the front of `s`. */
  function LeadingWhitespace(s: string): (n: nat)
    ensures n <= |s|
  {
    |s| - |TrimStart(s)|
  }

  /** Trailing whitespace cut from the suffix `t` of `s` is trailing
      whitespace of `s`, and the kept prefix of `t` is a slice of `s`. */
  lemma TrimEndOfSuffix(s: string, t: string, r: string)
    requires |t| <= |s| && t == s[|s| - |t|..]
    requires |r| <= |t| && r == t[..|r|]
    requires forall i | |r| <= i < |t| :: IsWhitespace(t[i])
    ensures r == s[|s| - |t|..|s| - |t| + |r|]
    ensures forall k | |s| - |t| + |r| <= k < |s| :: IsWhitespace(s[k])
  {
    var i := |s| - |t|;
    assert forall k | 0 <= k < |r| :: r[k] == t[k] == s[i + k];
    assert forall k | i + |r| <= k < |s| :: s[k] == t[k - i];
  }

  /** `s.trim()`: the slice of `s` left after cutting whitespace from both
      ends, so it neither starts nor ends with whitespace. */
  function Trim(s: string): (r: string)
    ensures r == [] || (!IsWhitespace(r[0]) && !IsWhitespace(r[|r| - 1]))
    ensures LeadingWhitespace(s) + |r| <= |s|
    ensures r == s[LeadingWhitespace(s)..LeadingWhitespace(s) + |r|]
    ensures forall k | 0 <= k < LeadingWhitespace(s) :: IsWhitespace(s[k])
    ensures forall k | LeadingWhitespace(s) + |r| <= k < |s| :: IsWhitespace(s[k])
    ensures r == [] <==> AllWhitespace(s)
  {
    var t := TrimStart(s);
    var r := TrimEnd(t);
    TrimEndOfSuffix(s, t, r);
    assert r == [] <==> AllWhitespace(s) by {
      assert AllWhitespace(t) <==> t == [];
    }
    r
  }

  /** `!s.trim()`: true exactly when `s` is empty or made only of whitespace. */
  function IsBlank(s: string): (b: bool)
    ensures b <==> AllWhitespace(s)
  {
    Trim(s) == []
  }

  /** Trimming is idempotent: a trimmed string trims to itself. */
  lemma TrimIdempotent(s: string)
    ensures Trim(Trim(s)) == Trim(s)
  {
    var r := Trim(s);
    if r != [] {
      assert TrimStart(r) == r;
      assert TrimEnd(r) == r;
    }
  }

  /** `s || undefined`: the empty string, JavaScript's only falsy string,
      becomes absent; every other string is kept verbatim. */
  function OrUndefined(s: string): (r: Option<string>)
    ensures r.None? <==> s == ""
    ensures r.Some? ==> r.value == s
  {
    if s == "" then None else Some(s)
  }

  function DigitChar(d: nat): (c: char)
    requires d < 10
    ensures IsDigit(c)
  {
    '0' + d as char
  }

  function DigitValue(c: char): (d: nat)
    requires IsDigit(c)
    ensures d < 10 && DigitChar(d) == c
  {
    (c - '0') as nat
  }

  /** Reads a string of decimal digits as a number (most significant first). */
  function DigitsValue(s: string): nat
    requires AllDigits(s)
  {
    if s == [] then 0 else DigitsValue(s[..|s| - 1]) * 10 + DigitValue(s[|s| - 1])
  }

  /** The decimal rendering of a natural number, without leading zeros. */
  function NatToString(n: nat): (r: string)
    ensures |r| >= 1 && AllDigits(r)
    ensures |r| > 1 ==> r[0] != '0'
  {
    if n < 10 then [DigitChar(n)] else NatToString(n / 10) + [DigitChar(n % 10)]
  }

  /** `${n}` for an integer `n`: a minus sign before the magnitude when negative. */
  function IntToString(n: int): (r: string)
    ensures |r| >= 1
    ensures r[0] == '-' <==> n < 0
    ensures n >= 0 ==> AllDigits(r)
    ensures n < 0 ==> AllDigits(r[1..])
  {
    if n < 0 then "-" + NatToString(-n) else NatToString(n)
  }

  /** Reading back the decimal rendering gives the number again. */
  lemma {:induction false} NatToStringRoundTrip(n: nat)
    ensures DigitsValue(NatToString(n)) == n
    decreases n
  {
    if n >= 10 {
      NatToStringRoundTrip(n / 10);
      var s := NatToString(n);
      assert s[..|s| - 1] == NatToString(n / 10);
    }
  }

  /** Distinct integers render to distinct strings. */
  lemma IntToStringInjective(a: int, b: int)
    ensures IntToString(a) == IntToString(b) ==> a == b
  {
    if IntToString(a) == IntToString(b) {
      if a < 0 {
        assert IntToString(a)[1..] == NatToString(-a);
        assert IntToString(b)[1..] == NatToString(-b);
        NatToStringRoundTrip(-a);
        NatToStringRoundTrip(-b);
      } else {
        NatToStringRoundTrip(a);
        NatToStringRoundTrip(b);
      }
    }
  }
}

=== FILE: wrappers.dfy ===
/** Option and Result, the two failure-carrying shapes the rest of the model uses:
    `Option` for the source's `T | null | undefined` values and `Result` for a
    promise that resolves to a value or rejects with an error. */
module Wrappers {

  datatype Option<+T> = None | Some(value: T) {

    /** The value, or `default` when absent (the source's `x ?? default`). */
    function GetOr(default: T): (r: T)
      ensures Some? ==> r == value
      ensures None? ==> r == default
    {
      match this
      case Some(v) => v
      case None => default
    }
  }

  datatype Result<+T, +E> = Success(value: T) | Failure(error: E) {

    /** Keeps the error and drops the value, for a step whose caller only
        needs to know whether the promise resolved. */
    function Discard(): (r: Result<(), E>)
      ensures Success? <==> r.Success?
      ensures Failure? ==> r == Failure(error)
    {
      match this
      case Success(_) => Success(())
      case Failure(e) => Failure(e)
    }
  }
}
